=== FILE: README.md ===
# Virtual Ring: a Dafny model of the control panel and the overlay registry

Virtual Ring is an Electron ring light. A control panel (`RingControlApp`
in `script.js`) holds a power switch and four sliders: brightness,
thickness, size and warmth. The main process (`main.js`) keeps a map of
transparent overlay windows, one per target display. Each overlay window
draws the ring.

This project models both halves as pure Dafny functions over immutable
data, and proves what each operation promises.

- **Value mappings** (`Color`, `Mappings`):
  - warmth to the ring's RGB colour, with `Math.round` modelled as round-half-up;
  - the temperature label, as written and as intended;
  - the slider position under the pointer;
  - the clamps the in-page fallback ring applies to border width, opacity and size.
- **Display targeting** (`Displays`, `JsText`):
  - `getTargetDisplays` resolves a selection token (`primary`, `all`, `display_N`) against the enumerated displays;
  - `parseInt` follows its ECMAScript definition;
  - the `get-displays` reply;
  - the option values the panel builds from that reply.
- **Overlay registry** (`Overlays`, `OverlayProperties`):
  - the `overlayWindows` map as changed by the `show-ring-overlay`, `hide-ring-overlay`, `update-ring-properties` and mouse-event handlers;
  - windows are records `{bounds, destroyed, ignoreMouse, sent, initial}` in a heap keyed by creation serial;
  - the map is the sequence of serials it holds under keys 0, 1, … .
- **Panel state machine** (`Panel`, `PanelProperties`):
  - power with its re-entrancy guard, the sliders, dragging, the per-slider debounce timers, and deduplication through `lastAppliedValue`;
  - every timer and promise continuation is an explicit event: the 1 s toggle cool-down, the 500 ms debounce, the show reply, the 500 ms refresh, and the 100 ms re-show after a monitor change;
  - each event is one call of one handler, and each step returns the new state and the effects it issues, in order;
  - a physical gesture is as many events as there are listeners registered for it.
- **Both together** (`Bridge`): the panel's overlay effects are delivered to the main-process handlers, and a complete two-display session is proved end to end.

Behaviours the code has and the model keeps on purpose:

- **Power-off does not clear debounce timers.** A timer that fires later is dropped by its own power check at script.js:383 (`PanelProperties.PowerOffThenTimer`).
- **`stopSliderDrag` applies the value at once but does not cancel the pending timer** (script.js:291-301). When that timer fires, the deduplication makes it a no-op (`PanelProperties.DragAppliesOnce`).
- **Drag listeners pile up.** Each `startSliderDrag` adds one `mousemove` and one `mouseup` listener (script.js:267-268). `removeEventListener` is given fresh arrow functions (script.js:296-297), so neither is ever removed. Release and move events therefore arrive when no drag is in progress, and `Panel.StopDrag` does not require the slider to be dragging.
- **A press on a thumb starts the drag twice.** The track is the thumb's parent (script.js:44), and both listen for `mousedown` (script.js:241-247), so the press bubbles and `startSliderDrag` runs twice. In the first such drag every physical move is two move events and the release is two release events: the ring gets each update twice, and deduplication still makes one external call (`PanelProperties.ThumbPressDoublesUpdates`). Every later press adds another pair of listeners.
- **`'primary'` means position 0 in enumeration order.** It is not the display the platform flags as primary (main.js:221).
- **The 100 ms re-show after a monitor change does not look at power.** Turning power off within that window still brings the ring back (script.js:155-158, `PanelProperties.ReshowIgnoresPower`).
- **A second `show-ring-overlay` without a hide leaks windows.** It overwrites map entries without closing the windows they held (main.js:313, `OverlayProperties.ShowOverShowLeaks`).
- **`updateSlider` stores values as given, without clamping.** Only values derived from the pointer are clamped (script.js:303-305, `PanelProperties.SetSliderValueUnclamped`).
- **Names inherited from `Object.prototype` pass the slider lookup.** `this.sliders` is a plain object, so `setSliderValue('toString', v)` reaches `updateSlider`, writes `currentValue` and then throws, and `getSliderValue('constructor')` is `undefined` (script.js:303-315, 806-814, `PanelProperties.ProtoWriteIsShared`).

## Model

| member | source | states |
|---|---|---|
| `Color.Round` | script.js:423 | `Math.round`: the integer within half a unit of x, with halves going up |
| `Color.RoundMonotone` | script.js:703-712 | rounding never reverses the order of two values |
| `Color.RoundInRange` | script.js:703-712 | a value between two integers rounds to an integer between them, so colour components stay bytes |
| `Color.ColorTemperature` | script.js:699-719 | at or below 50 blue is 255 and red equals green; above 50 red is 255; on [0,100] every component is a byte; above 50 green stays at least 102 and blue at least 51 |
| `Color.ColorTemperatureAnchors` | script.js:699-719 | warmth 0 is (0,0,255), 50 is white, 100 is (255,102,51) |
| `Color.ColorTemperatureMonotone` | script.js:701-716 | warming towards neutral never lowers red; warming past neutral never raises green or blue |
| `Color.TemperatureLabel` | script.js:721-735 | as written: 'Coolest' exactly for ≤ 0, 'Cool' exactly for (0,45], 'Neutral' for everything above 45 |
| `Color.WarmLabelsUnreachable` | script.js:726-734 | as written, 'Warm', 'Hot' and 'Warmest' are never returned |
| `Color.IntendedTemperatureLabel` | script.js:721-735 | with a comparison at line 726 each label holds exactly on its band ('Neutral' only at 50), agreeing with the code up to 45 |
| `Color.InclusiveTemperatureLabel` | script.js:721-735 | with `<= 50` at line 726 each label holds exactly on its band ('Neutral' on (45,50]), agreeing with the code up to 45 |
| `Color.IntendedReadingsAgree` | script.js:726 | the `== 50` and `<= 50` readings agree except strictly between 45 and 50, and above 50 both differ from the code |
| `Color.LabelDiscrepancy` | script.js:726 | warmth 60 is labelled 'Neutral' by the code and 'Warm' under either intended comparison |
| `Mappings.Clamp` | script.js:282-285 | `Math.max(lo, Math.min(hi, x))` lies in [lo,hi], is x itself inside, and the violated bound outside |
| `Mappings.ClampMonotone` | script.js:282-285 | clamping preserves order |
| `Mappings.SliderValueAt` | script.js:271-289 | the pointer value is in [0,100]; proportional to the offset on a horizontal track, 100 minus that on a vertical one; pinned to the end the pointer passed |
| `Mappings.VerticalIsInverted` | script.js:278-286 | at every offset the vertical value is 100 minus the horizontal one |
| `Mappings.BorderWidth` | script.js:611 | fallback border width stays in [2,300] and is 3 px per thickness percent where that fits |
| `Mappings.Opacity` | script.js:637 | fallback opacity stays in [0.1,1] and is brightness/100 from 10 % up |
| `Mappings.RingPixels` | script.js:662 | fallback ring size stays in [100,1200] px and is 12 px per size percent where that fits |
| `Mappings.DomMappingsMonotone` | script.js:609-664 | a larger slider value never gives a thinner, fainter or smaller fallback ring |
| `Displays.UpToUnderscore` | main.js:227 | field 1 of `split('_')`: the longest underscore-free prefix, ending at an underscore or the end |
| `Displays.TargetDisplays` | main.js:218-236 | 'all' is every display in order; an in-range `display_N` is that display; any other token, including an empty one, is `[displays[0]]` (undefined when there is none) |
| `Displays.PrimaryIsFirst` | main.js:221 | 'primary' selects position 0 of the enumeration |
| `Displays.UnmatchedResolvesAsPrimary` | main.js:221-233 | an out-of-range, non-numeric or unknown token resolves exactly as 'primary' does |
| `Displays.DescribeDisplays` | main.js:387-404 | the reply has one entry per display, id = position, bounds and size copied, flagged primary exactly when its platform id is the primary display's |
| `Displays.MonitorOptions` | script.js:168-205 | the options are rebuilt exactly when the reply lists more than one display: 'primary', 'all', then `display_i` for each entry in order |
| `Displays.DisplayOptionSelects` | script.js:188-193 | the option written for position i selects exactly display i |
| `Displays.DescribedDisplaySelectsItself` | main.js:391-398 | round trip: the option built from a reply entry's id resolves to the display that entry describes |
| `Displays.OptionsResolveToDisplays` | script.js:170-193 | every option the panel offers resolves to a non-empty list of real displays |
| `JsText.DecimalString` | script.js:190 | an index is written as a non-empty run of decimal digits without a leading zero |
| `JsText.DecimalStringValue` | script.js:190 | the digits written for n denote n |
| `JsText.ParseIntDecimalString` | main.js:227 | `parseInt` reads back every index the panel writes |
| `JsText.ParseIntRejects` | main.js:227 | text that starts with anything but white space, a sign or a digit (or is empty) parses to NaN |
| `JsText.ParseIntStopsAtNonDigit` | main.js:227 | parsing stops at the first non-digit, so `display_1x` names display 1 |
| `Overlays.ForEachLive` | main.js:343-348 | `forEach` with the `isDestroyed` check: acts on exactly the live windows the map refers to, counts them, and creates or removes no window |
| `Overlays.HideRingOverlay` | main.js:323-337 | the map ends empty; a window ends closed exactly when it was closed or the map referred to it; nothing else about any window changes |
| `Overlays.UpdateRingProperties` | main.js:339-355 | exactly the live referenced windows receive the properties, appended after what they had; `updatedCount` is their number; map and windows otherwise unchanged |
| `Overlays.SetMouseEvents` | main.js:358-384 | pass-through is set to the requested value on exactly the live referenced windows; nothing else changes |
| `OverlayProperties.MouseEventsKeepLive` | main.js:358-384 | enabling or disabling mouse events leaves the live windows and the map's live keys unchanged |
| `OverlayProperties.MouseEventsLastWins` | main.js:358-384 | of two pass-through requests in a row only the last has any effect, so disabling then enabling gives exactly what enabling alone gives |
| `OverlayProperties.MouseEventsReachShownWindows` | main.js:358-384 | after a hide and a show, every window the show put in the map gets exactly the requested pass-through |
| `Overlays.InitialProps` | main.js:290-296 | each property is passed through unless it is 0, which becomes 50, 100, 50 or 25; so no initial property is 0 |
| `Overlays.CreateFrom` | main.js:245-314 | the loop creates one window per target from position i, stopping at the first undefined target; those positions refer to the new windows; other positions and all old windows are untouched; success exactly when no target is undefined |
| `Overlays.Place` | main.js:313 | `overlayWindows.set(i, w)`: a new serial at position i, every other position unchanged |
| `Overlays.ShowRingOverlay` | main.js:239-321 | keys 0..n-1 refer to fresh windows on the n targets and the reply says n; keys from n on keep their windows; no existing window is closed or changed; with no display it fails unchanged |
| `Overlays.DeliverInitialProps` | main.js:287-300 | the delayed initial send reaches a window only if it is still live; afterwards nothing is pending for it |
| `Overlays.DestroyWindow` | main.js:289 | a window closed from outside leaves the live set by exactly that window |
| `OverlayProperties.HideIdempotent` | main.js:323-337 | a second hide changes nothing, and a hide on an empty registry succeeds |
| `OverlayProperties.HideClosesReferenced` | main.js:325-330 | hiding removes from the live set exactly the windows the map refers to |
| `OverlayProperties.HideThenShow` | main.js:239-337 | after hide then show, the live windows are exactly those in the map, one per target, and none is orphaned |
| `OverlayProperties.UpdateKeepsLiveKeys` | main.js:343-348 | an update changes no window's liveness |
| `OverlayProperties.UpdateKeepsLiveWindows` | main.js:339-355 | an update keeps the live set, and so keeps every live window reachable |
| `OverlayProperties.UpdateAfterShowReachesTargets` | main.js:239-355 | after hide then show, an update reaches one window per target display and appends to every live window |
| `OverlayProperties.CyclesDoNotLeak` | main.js:239-337 | after any number of hide/show rounds, the live windows number the targets |
| `OverlayProperties.ShowOverShowLeaks` | main.js:313 | from any registry, two non-empty shows and a hide: every window of the first show under a key the second show reuses stays open, while the map ends empty |
| `OverlayProperties.ReplacedStaysOpen` | main.js:313 | a show that reuses the key of an open window drops it from the map without closing it, so the next hide leaves it open |
| `OverlayProperties.ClosedWindowMissesUpdates` | main.js:339-355 | a window closed from outside receives no later update, and the update reply counts one live key fewer when the map held it open, the same count when the map did not hold it |
| `OverlayProperties.InitialPropsOnce` | main.js:287-300 | the initial properties are delivered at most once |
| `Panel.SliderIdOf` | script.js:806-814 | a name is an own key of `this.sliders` exactly when it is one of the four configured slider names, and then it names that slider |
| `Panel.LookUp` | script.js:806-814 | `this.sliders[name]` finds a slider exactly for the four slider keys, an object inherited from `Object.prototype` exactly for that prototype's property names, and `undefined` for every other name |
| `Panel.Init` | script.js:2-13 | after construction power is off, no guard, no timers, no pending refresh or re-show, the in-page ring hidden, nothing written on inherited objects, the Electron flag as detected, each slider at its configured default, and the monitor the saved choice or else 'primary' (script.js:134-141) |
| `Panel.RingUpdate` | script.js:592-697 | an `updateRing*` call does nothing with power off; with power on it sends the overlay that slider's current value as its property, or, outside Electron, restyles the in-page ring with that value |
| `Panel.TogglePower` | script.js:481-514 | while the guard is set nothing happens; otherwise power flips and the guard is set, and nothing else changes except the in-page ring's visibility outside Electron; turning on shows the ring (the overlay show call with the current ring data, or the in-page ring with the four-property refresh), turning off hides it (the overlay hide call, or the in-page ring hidden with no effect) |
| `Panel.CooldownExpired` | script.js:510-513 | the cool-down clears the guard and nothing else |
| `Panel.UpdateSlider` | script.js:303-372 | the slider takes the value as given; its timer is re-armed with it exactly when power is on and initialisation is over, other timers untouched; power on sends it to the ring, power off sends nothing |
| `Panel.ApplySystemControl` | script.js:391-419 | nothing outside Electron or for the last applied value; otherwise the value is recorded and exactly one call of the slider's kind is issued, with the rounded value |
| `Panel.StartDrag` | script.js:262-269 | with power off nothing changes; otherwise only that slider starts dragging |
| `Panel.ValueUnder` | script.js:271-286 | the value under the pointer is in [0,100]; a pointer at or before the track's start reads 0 on a horizontal track and 100 on a vertical one, at or past its end 100 and 0; only the axis the slider uses must be readable, and a zero-extent track is readable when the pointer is off its edge |
| `Panel.PointerMoved` | script.js:271-289 | ignored with power off or no drag; otherwise an `updateSlider` with the clamped pointer value, for any track readable along the slider's own axis |
| `Panel.StopDrag` | script.js:291-301 | with power off nothing changes; otherwise dragging ends and the current value is applied at once, timers untouched |
| `Panel.FireDebounce` | script.js:380-388 | a firing removes its entry in every case and applies the stored value only if power is on and initialisation is over |
| `Panel.SelectMonitor` | script.js:149-161 | the choice is kept; with power off nothing else happens; with power on one re-show is scheduled and the ring is hidden: the overlay hide call in Electron, the in-page ring hidden with no effect outside it |
| `Panel.ReshowDue` | script.js:157-159 | the re-show runs `showRing` whatever the power state: in Electron the show call with the current ring data, outside it the in-page ring made visible with the four-property refresh (`RefreshAll`) |
| `Panel.ShowAnswered` | script.js:532-551 | success schedules one refresh and issues nothing; failure makes the in-page ring visible and issues the four-property refresh (`RefreshAll`) |
| `Panel.RefreshDue` | script.js:536-541 | with a refresh pending, the due refresh issues exactly the four-property refresh (`RefreshAll`) and consumes it; with none pending nothing happens |
| `Panel.RefreshAll` | script.js:536-541 | with power off nothing; with power on in Electron the thickness, brightness, size and warmth updates in that order, warmth sent as its RGB colour; outside Electron the in-page ring's border width, opacity, size and colour from the same values, in that order |
| `Panel.SetSliderValue` | script.js:806-810 | a name that finds nothing is ignored; a slider's name is `updateSlider`; an inherited name has `currentValue` written onto its object (line 305), changes nothing else, and throws a TypeError at the first DOM access (line 315) |
| `Panel.GetSliderValue` | script.js:812-814 | a slider's current value for its name; 0 for a name that finds nothing; for an inherited name the value written onto its object or onto `Object.prototype`, and `undefined` exactly when neither was written |
| `Panel.SetPowerState` | script.js:816-820 | a request for the current state, or one made while the guard is set, does nothing; otherwise it is exactly `togglePower`: power becomes the requested state, sliders, timers and monitor are untouched, and the ring is shown (overlay show call, or in-page ring visible with the four-property refresh) or hidden (overlay hide call, or in-page ring hidden) |
| `PanelProperties.SliderNameRoundTrip` | script.js:41-78 | each slider's key looks that slider up |
| `PanelProperties.SetThenGetSlider` | script.js:806-814 | after a set, a slider's name and an inherited name both read back the value set; a name that finds nothing is ignored by the setter and reads 0 |
| `PanelProperties.ProtoWriteIsShared` | script.js:806-814 | an unwritten inherited name reads `undefined`; setting `__proto__` writes onto `Object.prototype`, throws, leaves sliders and timers alone, and every unwritten inherited name then reads the value |
| `PanelProperties.SetSliderValueUnclamped` | script.js:303-305 | any value is stored as given, and with power on after initialisation it is also the value the re-armed debounce timer (line 381) will apply |
| `PanelProperties.ToggleGuard` | script.js:481-513 | while the guard is set no click or request toggles power, and only the cool-down clears the guard |
| `PanelProperties.DoubleClick` | script.js:481-514 | a second click before the cool-down is dropped; after it, a second click restores the power state |
| `PanelProperties.PowerOffIsQuiet` | script.js:262-301 | with power off, no event calls the external controls, and no non-power event sends a property update to the overlay or turns power on |
| `PanelProperties.PowerOffRunIsQuiet` | script.js:366-368 | a whole run of non-power events with power off makes no external control call |
| `PanelProperties.ApplyInRange` | script.js:391-453 | a value in [0,100] reaches the external controls as an integer in [0,100]; timers and other sliders are untouched |
| `PanelProperties.StepKeepsRange` | script.js:271-419 | from slider and timer values in [0,100], every event with an in-range value keeps them there and calls the external controls only in range |
| `PanelProperties.RunKeepsRange` | script.js:271-419 | the range invariant holds after any run of readable events with programmatic values in [0,100], and every external call in it is in range |
| `PanelProperties.InitKeepsRange` | script.js:2-13 | the constructed panel meets the range invariant, so every such run from it stays in range, and a run without power events calls the external controls not at all |
| `PanelProperties.DebounceCoalesces` | script.js:374-389 | three quick updates then one firing give three ring updates and one external call, with the last value; the entry is gone, and a second firing does nothing |
| `PanelProperties.DragAppliesOnce` | script.js:262-301 | one press event, one move event, one release event, then the timer: one ring update and one external call, the pending timer a no-op through deduplication |
| `PanelProperties.ThumbPressDoublesUpdates` | script.js:241-268 | a thumb press runs `startSliderDrag` twice; the doubled listeners then call the move handler twice and the release handler twice per gesture, which sends the ring each update twice and still makes exactly one external call, the timer included |
| `PanelProperties.PowerOffThenTimer` | script.js:381-388 | power-off with a timer pending only hides; the timer fires without effect and its entry is removed |
| `PanelProperties.ReshowIgnoresPower` | script.js:155-159 | a monitor change then power-off within 100 ms still re-shows the ring with power off |
| `Bridge.Deliver` | main.js:239-355 | the main process answers exactly the show, hide and update effects; other effects leave it unchanged |
| `Bridge.DeliverAll` | main.js:239-355 | a list of effects gets one reply per overlay call |
| `Bridge.DeliverAllAppend` | main.js:239-355 | the main process handles effects strictly in order: delivering two lists one after the other is delivering their concatenation, with the replies concatenated |
| `Bridge.DeliverSends` | main.js:339-355 | delivering the send effects of a list of updates calls the update handler once per update, in order |
| `Bridge.UpdatesInOrder` | main.js:339-355 | successive updates each count the same live windows, and each referenced live window receives them all in order |
| `Bridge.TwoDisplaySession` | script.js:481-556 | on two displays with 'all': power on opens one window per display; the refresh after the show reply sends all four properties to both, in order; power off after the cool-down closes both. The delayed initial-properties send of each new window (main.js:287-300) is a separate main-process step not taken in this session |

## Left out

- `preload.js` is not part of this model. It only maps names to IPC channels.
- Window creation details (main.js:250-284, 303-310): the `BrowserWindow` options, loading `overlay.html`, showing on `ready-to-show`, the always-on-top level, console forwarding, and load-failure and close logging. A window is only its bounds, liveness, pointer pass-through and received messages.
- Overlays.ShowRingOverlay: exceptions thrown by Electron itself are not modelled. The only failure modelled is the undefined first target when no display exists.
- Overlays.HideRingOverlay, Overlays.UpdateRingProperties and Overlays.SetMouseEvents: the `catch` branches are not modelled. They only run when Electron throws.
- The `set-brightness`, `set-ring-size` and `set-color-temp` handlers (main.js:407-458) are stubs that reply success. On the panel side they are the opaque `Sink` effect. The web fallback in `setSystemBrightness` cannot be reached from `applySystemControl`.
- DOM styling is left out:
  - thumb position, fill and hue (`getValueHue`);
  - the value text in `updateSlider`, so `getTemperatureLabel` is modelled but not wired to an effect;
  - the enable/disable slider styling;
  - the power button's look.
- `CustomEvent` emission, console logging, `localStorage` writes, window controls, keyboard shortcuts, `openSettings` and `openPayPal` are left out as user-interface or I/O.
- `getPowerState` and `getAllValues` are left out. They are plain reads of state the model exposes directly.
- Panel.Init: the `updateSlider` calls made during construction are not replayed. Power is off then, so they have no effect. `isInitializing` is false afterwards. It is still a state field, so `UpdateSlider` and `FireDebounce` keep their checks.
- Displays.MonitorOptions: only the option values are modelled. The labels, and restoring the selection into the `<select>`, are DOM work.
- Overlays.InitialProps: the colour always comes from the panel, so the default colour string at main.js:294 never applies. Colours are RGB triples; the constant 0.9 alpha is not carried.
- Panel.ValueUnder, Panel.PointerMoved: a pointer exactly on the edge of a zero-extent track computes 0 / 0. The resulting NaN is not modelled, so such a move is outside the model.
- Panel.SetSliderValue: for an inherited name the thrown TypeError is the `TypeErrorThrown` effect, and what its caller does with it is not modelled. Only the twelve standard `Object.prototype` properties count as inherited names.
- Panel.SetPowerState: the requested state is a boolean, so the strict `state !== this.powerState` test (script.js:817) on a non-boolean argument, such as `setPowerState(1)` with power on toggling power off, is not modelled.
- Panel.RingUpdate: the fallback defaults used when a slider is missing never apply, because all four sliders always exist.
- Time is left out: each delay is an event, and events may come in any order. Concurrency and promise scheduling are not modelled beyond that.
- Numbers are exact reals, so IEEE floating-point rounding is left out. `Math.round` is round-half-up.
- Touch input: only `touchstart` is listened for (script.js:250-258). It starts a drag like `mousedown`, and its touch point is not used. No `touchmove` or `touchend` listener exists, so the model has no touch events beyond `DragStarted`.

## Findings

| source | as written | input that shows it | evidently intended | confidence | as-written member | corrected member |
|---|---|---|---|---|---|---|
| script.js:726 | `warmthValue = 50` assigns, and 50 is truthy, so every warmth above 45 is labelled 'Neutral' | warmth 60 gives 'Neutral' | a comparison, ambiguous between `== 50` ('Neutral' only at 50) and `<= 50` ('Neutral' on (45,50]); either way 'Warm' up to 75, 'Hot' below 100, 'Warmest' from 100 (the `<= 50` reading is `Color.InclusiveTemperatureLabel`) | high for the defect, the intended comparison ambiguous; not executed | `Color.LabelDiscrepancy` | `Color.IntendedTemperatureLabel` |

=== FILE: bridge.dfy ===
/** The panel and the main process together: the panel's overlay effects
    are the IPC calls the main process handles. */
module Bridge {
  import opened Wrappers
  import opened Color
  import opened Ring
  import opened Displays
  import opened Overlays
  import opened OverlayProperties
  import opened Panel

  /** The main process handling one panel effect. Only the three overlay
      calls reach it, and each gets a reply; the external control calls and
      in-page styles leave it unchanged. */
  function Deliver(m: Main, displays: seq<Display>, e: Effect): (r: (Main, Option<Reply>))
    requires Valid(m)
    ensures Valid(r.0)
    ensures r.1.Some? <==> e.ShowOverlay? || e.HideOverlay? || e.SendUpdate?
    ensures r.1.None? ==> r.0 == m
  {
    match e
    case ShowOverlay(data) =>
      var x := ShowRingOverlay(m, data, displays);
      (x.0, Some(x.1))
    case HideOverlay =>
      var x := HideRingOverlay(m);
      (x.0, Some(x.1))
    case SendUpdate(u) =>
      var x := UpdateRingProperties(m, u);
      (x.0, Some(x.1))
    case _ =>
      (m, None)
  }

  /** The overlay calls among a list of effects. */
  function OverlayCalls(effects: seq<Effect>): nat {
    if |effects| == 0 then 0
    else (if effects[0].ShowOverlay? || effects[0].HideOverlay? || effects[0].SendUpdate? then 1 else 0)
         + OverlayCalls(effects[1..])
  }

  /** The main process handling a list of effects in order; the replies
      come back in the same order, one per overlay call. */
  function DeliverAll(m: Main, displays: seq<Display>, effects: seq<Effect>): (r: (Main, seq<Reply>))
    requires Valid(m)
    ensures Valid(r.0)
    ensures |r.1| == OverlayCalls(effects)
    decreases |effects|
  {
    if |effects| == 0 then
      (m, [])
    else
      var first := Deliver(m, displays, effects[0]);
      var rest := DeliverAll(first.0, displays, effects[1..]);
      (rest.0, (if first.1.Some? then [first.1.value] else []) + rest.1)
  }

  /** The main process handles effects strictly in order: delivering two
      lists one after the other is delivering their concatenation, and the
      replies concatenate. */
  lemma {:induction false} DeliverAllAppend(m: Main, displays: seq<Display>, a: seq<Effect>, b: seq<Effect>)
    requires Valid(m)
    ensures var x := DeliverAll(m, displays, a);
      var y := DeliverAll(x.0, displays, b);
      DeliverAll(m, displays, a + b) == (y.0, x.1 + y.1)
    decreases |a|
  {
    if |a| == 0 {
      assert a + b == b;
      assert DeliverAll(m, displays, a) == (m, []);
      var y := DeliverAll(m, displays, b);
      assert [] + y.1 == y.1;
    } else {
      var first := Deliver(m, displays, a[0]);
      assert (a + b)[0] == a[0];
      assert (a + b)[1..] == a[1..] + b;
      DeliverAllAppend(first.0, displays, a[1..], b);
      var head := if first.1.Some? then [first.1.value] else [];
      var x := DeliverAll(first.0, displays, a[1..]);
      var y := DeliverAll(x.0, displays, b);
      assert head + (x.1 + y.1) == (head + x.1) + y.1;
    }
  }

  /** The panel and the main process, with the displays attached. */
  datatype System = System(panel: Panel, main: Main)

  /** One panel event and the main process's handling of its effects. */
  function SystemStep(s: System, displays: seq<Display>, e: Event): (r: (System, seq<Reply>))
    requires Valid(s.main) && WellFormed(e)
    ensures Valid(r.0.main)
    ensures r.0.panel == Step(s.panel, e).0
  {
    var x := Step(s.panel, e);
    var y := DeliverAll(s.main, displays, x.1);
    (System(x.0, y.0), y.1)
  }

  /** Delivering a single effect. */
  lemma DeliverOne(m: Main, displays: seq<Display>, e: Effect)
    requires Valid(m)
    ensures var x := Deliver(m, displays, e);
      DeliverAll(m, displays, [e]) == (x.0, if x.1.Some? then [x.1.value] else [])
  {
    assert [e][1..] == [];
    var x := Deliver(m, displays, e);
    assert DeliverAll(x.0, displays, []) == (x.0, []);
    assert (if x.1.Some? then [x.1.value] else []) + [] == (if x.1.Some? then [x.1.value] else []);
  }

  /** The four updates of a refresh, in the order the panel sends them. */
  function RefreshUpdates(p: Panel): seq<Update> {
    [ThicknessProp(p.sliders.thickness.current), BrightnessProp(p.sliders.brightness.current),
     SizeProp(p.sliders.size.current),
     WarmthProp(p.sliders.warmth.current, ColorTemperature(p.sliders.warmth.current))]
  }

  /** `update-ring-properties` called once per update, in order. */
  function UpdateEach(m: Main, us: seq<Update>): (r: (Main, seq<Reply>))
    requires Valid(m)
    ensures Valid(r.0)
    decreases |us|
  {
    if |us| == 0 then
      (m, [])
    else
      var x := UpdateRingProperties(m, us[0]);
      var rest := UpdateEach(x.0, us[1..]);
      (rest.0, [x.1] + rest.1)
  }

  /** Delivering the send effects of a list of updates is calling the
      update handler once per update. */
  lemma {:induction false} DeliverSends(m: Main, displays: seq<Display>, us: seq<Update>)
    requires Valid(m)
    ensures DeliverAll(m, displays, Sends(us)) == UpdateEach(m, us)
    decreases |us|
  {
    if |us| == 0 {
      assert Sends(us) == [];
    } else {
      var x := UpdateRingProperties(m, us[0]);
      assert Sends(us)[1..] == Sends(us[1..]);
      assert Deliver(m, displays, Sends(us)[0]) == (x.0, Some(x.1));
      DeliverSends(x.0, displays, us[1..]);
    }
  }

  lemma AppendFirst(before: seq<Update>, us: seq<Update>)
    requires |us| > 0
    ensures (before + [us[0]]) + us[1..] == before + us
  {
    assert us == [us[0]] + us[1..];
  }

  /** Property updates applied one after the other to a registry whose map
      refers to `n` live windows: each reply counts `n`, and every live
      window referenced from the map receives them all, in order. */
  lemma {:induction false} UpdatesInOrder(m: Main, us: seq<Update>, n: nat)
    requires Valid(m) && |LiveKeys(m)| == n
    ensures var r := UpdateEach(m, us);
      && |r.1| == |us| && (forall i | 0 <= i < |r.1| :: r.1[i] == Updated(n))
      && r.0.overlays == m.overlays
      && r.0.windows.Keys == m.windows.Keys
      && forall s | s in m.windows && s in m.overlays && !m.windows[s].destroyed ::
           r.0.windows[s].sent == m.windows[s].sent + us
    decreases |us|
  {
    if |us| > 0 {
      var m1 := UpdateRingProperties(m, us[0]).0;
      UpdateKeepsLiveKeys(m, us[0]);
      var tail := us[1..];
      UpdatesInOrder(m1, tail, n);
      var r := UpdateEach(m1, tail);
      forall s | s in m.windows && s in m.overlays && !m.windows[s].destroyed
        ensures r.0.windows[s].sent == m.windows[s].sent + us
      {
        assert m1.windows[s] == m.windows[s].(sent := m.windows[s].sent + [us[0]]);
        AppendFirst(m.windows[s].sent, us);
      }
    }
  }

  /** The effects that send a list of updates. */
  function Sends(us: seq<Update>): (e: seq<Effect>)
    ensures |e| == |us| && forall i | 0 <= i < |us| :: e[i] == SendUpdate(us[i])
  {
    seq(|us|, i requires 0 <= i < |us| => SendUpdate(us[i]))
  }

  /** Power on with the monitor choice `'all'` and two displays, on a fresh
      main process: two live windows, under keys 0 and 1, nothing sent. */
  lemma SessionOn(p: Panel, displays: seq<Display>)
    requires p.electron && !p.power && !p.toggling && p.monitor == "all" && |displays| == 2
    ensures var on := SystemStep(System(p, Start), displays, PowerClicked);
      && on.1 == [Shown(2)]
      && on.0.panel == p.(power := true, toggling := true)
      && on.0.main.overlays == [0, 1]
      && LiveWindows(on.0.main) == {0, 1} && on.0.main.windows.Keys == {0, 1}
      && on.0.main.windows[0].sent == [] && on.0.main.windows[1].sent == []
      && |LiveKeys(on.0.main)| == 2
  {
    var data := CurrentRingData(p);
    assert Step(p, PowerClicked).1 == [ShowOverlay(data)];
    var shown := ShowRingOverlay(Start, data, displays);
    ShowOnClosed(Start, data, displays);
    assert ShowTargets(data, displays) == [Some(displays[0]), Some(displays[1])];
    DeliverOne(Start, displays, ShowOverlay(data));
    assert shown.0.overlays == [0, 1];
    assert forall s :: s in shown.0.windows <==> s == 0 || s == 1;
  }

  /** With power on in Electron, a refresh is the four sends. */
  lemma RefreshSends(p: Panel)
    requires p.power && p.electron
    ensures RefreshAll(p) == Sends(RefreshUpdates(p))
  {
    var us := RefreshUpdates(p);
    assert Sends(us) == [SendUpdate(us[0]), SendUpdate(us[1]), SendUpdate(us[2]), SendUpdate(us[3])];
  }

  /** A successful show reply schedules one refresh and sends nothing. */
  lemma SessionReplied(s: System, displays: seq<Display>)
    requires Valid(s.main)
    ensures SystemStep(s, displays, ShowReplied(true)) ==
      (System(s.panel.(refreshes := s.panel.refreshes + 1), s.main), [])
  {
    assert Step(s.panel, ShowReplied(true)) == (s.panel.(refreshes := s.panel.refreshes + 1), []);
  }

  /** The refresh step: one scheduled refresh fewer, and the main process
      handles the four ring updates. */
  lemma RefreshStep(s: System, displays: seq<Display>)
    requires Valid(s.main) && s.panel.refreshes > 0
    ensures var x := DeliverAll(s.main, displays, RefreshAll(s.panel));
      SystemStep(s, displays, RefreshFired) == (System(s.panel.(refreshes := s.panel.refreshes - 1), x.0), x.1)
  {
    assert Step(s.panel, RefreshFired) == (s.panel.(refreshes := s.panel.refreshes - 1), RefreshAll(s.panel));
  }

  /** Four updates sent to a registry whose two keys are live reach both
      windows, in order. */
  lemma FourReachBoth(m: Main, displays: seq<Display>, us: seq<Update>)
    requires Valid(m) && |us| == 4
    requires m.overlays == [0, 1] && m.windows.Keys == {0, 1} && |LiveKeys(m)| == 2
    ensures var x := DeliverAll(m, displays, Sends(us));
      && x.1 == [Updated(2), Updated(2), Updated(2), Updated(2)]
      && x.0.overlays == [0, 1] && x.0.windows.Keys == {0, 1}
      && (!m.windows[0].destroyed ==> x.0.windows[0].sent == m.windows[0].sent + us)
      && (!m.windows[1].destroyed ==> x.0.windows[1].sent == m.windows[1].sent + us)
  {
    DeliverSends(m, displays, us);
    UpdatesInOrder(m, us, 2);
  }

  /** Power off after the cool-down closes both windows. */
  lemma SessionOff(s: System, displays: seq<Display>)
    requires Valid(s.main) && s.panel.power && s.panel.electron
    requires s.main.overlays == [0, 1] && s.main.windows.Keys == {0, 1}
    ensures var cooled := SystemStep(s, displays, CooldownElapsed);
      var off := SystemStep(cooled.0, displays, PowerClicked);
      && cooled.1 == []
      && off.1 == [Done] && LiveWindows(off.0.main) == {} && !off.0.panel.power
  {
    var q := s.panel.(toggling := false);
    assert Step(s.panel, CooldownElapsed) == (q, []);
    assert Step(q, PowerClicked).1 == [HideOverlay];
    DeliverOne(s.main, displays, HideOverlay);
  }

  /** A session on two displays with the monitor choice `'all'`: power on
      opens one overlay window per display; after the show succeeds, the
      scheduled refresh sends the four properties to both windows; power
      off after the cool-down closes both. */
  lemma TwoDisplaySession(p: Panel, displays: seq<Display>)
    requires p.electron && !p.power && !p.toggling && p.refreshes == 0
    requires p.monitor == "all" && |displays| == 2
    ensures var on := SystemStep(System(p, Start), displays, PowerClicked);
      var replied := SystemStep(on.0, displays, ShowReplied(true));
      var refreshed := SystemStep(replied.0, displays, RefreshFired);
      var cooled := SystemStep(refreshed.0, displays, CooldownElapsed);
      var off := SystemStep(cooled.0, displays, PowerClicked);
      && on.1 == [Shown(2)] && LiveWindows(on.0.main) == {0, 1}
      && refreshed.1 == [Updated(2), Updated(2), Updated(2), Updated(2)]
      && refreshed.0.main.windows.Keys == {0, 1}
      && refreshed.0.main.windows[0].sent == RefreshUpdates(p)
      && refreshed.0.main.windows[1].sent == RefreshUpdates(p)
      && off.1 == [Done] && LiveWindows(off.0.main) == {} && !off.0.panel.power
  {
    var on := SystemStep(System(p, Start), displays, PowerClicked);
    SessionOn(p, displays);
    SessionReplied(on.0, displays);
    var replied := SystemStep(on.0, displays, ShowReplied(true));
    assert RefreshUpdates(replied.0.panel) == RefreshUpdates(p);
    RefreshStep(replied.0, displays);
    RefreshSends(replied.0.panel);
    FourReachBoth(replied.0.main, displays, RefreshUpdates(p));
    var refreshed := SystemStep(replied.0, displays, RefreshFired);
    SessionOff(refreshed.0, displays);
  }
}

=== FILE: color.dfy ===
/** The panel's warmth slider mappings: warmth (0 = coolest, 100 = warmest)
    to the ring colour, and to the label shown under the slider. */
module Color {

  /** An `rgba(r, g, b, 0.9)` colour; the alpha is always 0.9. */
  datatype Rgb = Rgb(r: int, g: int, b: int)

  predicate InByteRange(c: Rgb) {
    0 <= c.r <= 255 && 0 <= c.g <= 255 && 0 <= c.b <= 255
  }

  /** JavaScript `Math.round`: the nearest integer, halves rounded up. */
  function Round(x: real): (n: int)
    ensures n as real - 0.5 <= x < n as real + 0.5
  {
    (x + 0.5).Floor
  }

  lemma RoundMonotone(x: real, y: real)
    requires x <= y
    ensures Round(x) <= Round(y)
  {
  }

  lemma RoundInRange(x: real, lo: int, hi: int)
    requires lo as real <= x <= hi as real
    ensures lo <= Round(x) <= hi
  {
  }

  /** `getColorTemperature`: blue fades to white over 0..50, then white
      turns orange over 50..100 (green kept to 40%, blue to 20%). */
  function ColorTemperature(warmth: real): (c: Rgb)
    ensures warmth <= 50.0 ==> c.b == 255 && c.r == c.g
    ensures warmth > 50.0 ==> c.r == 255
    ensures 0.0 <= warmth <= 100.0 ==> InByteRange(c)
    ensures 50.0 < warmth <= 100.0 ==> 102 <= c.g && 51 <= c.b
  {
    if warmth <= 50.0 then
      var factor := warmth / 50.0;
      var level := Round(255.0 * factor);
      assert 0.0 <= warmth ==> 0 <= level by {
        if 0.0 <= warmth { RoundInRange(255.0 * factor, 0, 255); }
      }
      Rgb(level, level, 255)
    else
      var factor := (warmth - 50.0) / 50.0;
      var g := Round(255.0 * (1.0 - factor * 0.6));
      var b := Round(255.0 * (1.0 - factor * 0.8));
      assert warmth <= 100.0 ==> 102 <= g <= 255 && 51 <= b <= 255 by {
        if warmth <= 100.0 {
          RoundInRange(255.0 * (1.0 - factor * 0.6), 102, 255);
          RoundInRange(255.0 * (1.0 - factor * 0.8), 51, 255);
        }
      }
      Rgb(255, g, b)
  }

  /** The three anchor colours: cool blue, neutral white, warm orange. */
  lemma ColorTemperatureAnchors()
    ensures ColorTemperature(0.0) == Rgb(0, 0, 255)
    ensures ColorTemperature(50.0) == Rgb(255, 255, 255)
    ensures ColorTemperature(100.0) == Rgb(255, 102, 51)
  {
    assert Round(0.0) == 0;
    assert Round(255.0) == 255;
    assert Round(102.0) == 102;
    assert Round(51.0) == 51;
  }

  /** Warming never removes red or green on the cool half, and never adds
      green or blue on the warm half. */
  lemma ColorTemperatureMonotone(w1: real, w2: real)
    requires w1 <= w2
    ensures w2 <= 50.0 ==> ColorTemperature(w1).r <= ColorTemperature(w2).r
    ensures 50.0 < w1 ==> ColorTemperature(w2).g <= ColorTemperature(w1).g
    ensures 50.0 < w1 ==> ColorTemperature(w2).b <= ColorTemperature(w1).b
  {
    if w2 <= 50.0 {
      RoundMonotone(255.0 * (w1 / 50.0), 255.0 * (w2 / 50.0));
    }
    if 50.0 < w1 {
      var f1 := (w1 - 50.0) / 50.0;
      var f2 := (w2 - 50.0) / 50.0;
      RoundMonotone(255.0 * (1.0 - f2 * 0.6), 255.0 * (1.0 - f1 * 0.6));
      RoundMonotone(255.0 * (1.0 - f2 * 0.8), 255.0 * (1.0 - f1 * 0.8));
    }
  }

  datatype Label = Coolest | Cool | Neutral | Warm | Hot | Warmest

  /** `getTemperatureLabel` as written. Its third test is `warmthValue = 50`,
      an assignment: the condition evaluates to 50, which is truthy, so every
      warmth above 45 is labelled Neutral and the later bands are dead. */
  function TemperatureLabel(warmth: real): (l: Label)
    ensures l == Coolest <==> warmth <= 0.0
    ensures l == Cool <==> 0.0 < warmth <= 45.0
    ensures l == Neutral <==> 45.0 < warmth
  {
    if warmth <= 0.0 then Coolest
    else if warmth <= 45.0 then Cool
    else
      // `warmthValue = 50` stores 50 and the `if` tests the stored value
      var warmthNow := 50.0;
      if warmthNow != 0.0 then Neutral
      else if warmthNow <= 75.0 then Warm
      else if warmthNow < 100.0 then Hot
      else Warmest
  }

  /** No warmth is ever labelled Warm, Hot or Warmest. */
  lemma WarmLabelsUnreachable(warmth: real)
    ensures TemperatureLabel(warmth) !in {Warm, Hot, Warmest}
  {
  }

  /** The label chain with the comparison `warmthValue == 50` that line 726
      evidently meant: every band is reachable. */
  function IntendedTemperatureLabel(warmth: real): (l: Label)
    ensures warmth <= 45.0 ==> l == TemperatureLabel(warmth)
    ensures l == Neutral <==> warmth == 50.0
    ensures l == Warm <==> 45.0 < warmth <= 75.0 && warmth != 50.0
    ensures l == Hot <==> 75.0 < warmth < 100.0
    ensures l == Warmest <==> 100.0 <= warmth
  {
    if warmth <= 0.0 then Coolest
    else if warmth <= 45.0 then Cool
    else if warmth == 50.0 then Neutral
    else if warmth <= 75.0 then Warm
    else if warmth < 100.0 then Hot
    else Warmest
  }

  /** The other plausible reading of line 726, `warmthValue <= 50`, which
      continues the chain of `<=` tests: Neutral on (45, 50], the band the
      colour mapping still draws on the blue side. */
  function InclusiveTemperatureLabel(warmth: real): (l: Label)
    ensures warmth <= 45.0 ==> l == TemperatureLabel(warmth)
    ensures l == Neutral <==> 45.0 < warmth <= 50.0
    ensures l == Warm <==> 50.0 < warmth <= 75.0
    ensures l == Hot <==> 75.0 < warmth < 100.0
    ensures l == Warmest <==> 100.0 <= warmth
  {
    if warmth <= 0.0 then Coolest
    else if warmth <= 45.0 then Cool
    else if warmth <= 50.0 then Neutral
    else if warmth <= 75.0 then Warm
    else if warmth < 100.0 then Hot
    else Warmest
  }

  /** The two readings disagree only strictly between 45 and 50, and above
      50 both disagree with the code as written. */
  lemma IntendedReadingsAgree(warmth: real)
    ensures warmth <= 45.0 || 50.0 <= warmth ==>
      IntendedTemperatureLabel(warmth) == InclusiveTemperatureLabel(warmth)
    ensures 45.0 < warmth < 50.0 ==>
      IntendedTemperatureLabel(warmth) == Warm && InclusiveTemperatureLabel(warmth) == Neutral
    ensures 50.0 < warmth ==>
      InclusiveTemperatureLabel(warmth) != TemperatureLabel(warmth)
  {
  }

  /** Warmth 60 shows the defect: labelled Neutral, meant to be Warm under
      either reading. */
  lemma LabelDiscrepancy()
    ensures TemperatureLabel(60.0) == Neutral
    ensures IntendedTemperatureLabel(60.0) == Warm
    ensures InclusiveTemperatureLabel(60.0) == Warm
  {
  }
}

=== FILE: displays.dfy ===
/** Which displays receive an overlay: the main process's
    `getTargetDisplays`, the `get-displays` reply, and the monitor options
    the panel builds from that reply. */
module Displays {
  import opened Wrappers
  import opened JsText

  datatype Bounds = Bounds(x: int, y: int, width: int, height: int)

  datatype Size = Size(width: int, height: int)

  /** A display as `screen.getAllDisplays()` enumerates it; `id` is the
      platform's identifier, unrelated to the position in the list. */
  datatype Display = Display(id: int, bounds: Bounds, size: Size)

  /** One entry of the `get-displays` reply. */
  datatype DisplayInfo = DisplayInfo(id: nat, bounds: Bounds, size: Size, isPrimary: bool)

  const DisplayPrefix: string := "display_"

  predicate StartsWith(s: string, prefix: string) {
    |prefix| <= |s| && s[..|prefix|] == prefix
  }

  /** The longest prefix of `s` that holds no underscore. */
  function UpToUnderscore(s: string): (r: string)
    ensures |r| <= |s| && r == s[..|r|]
    ensures '_' !in r
    ensures |r| < |s| ==> s[|r|] == '_'
  {
    if |s| == 0 || s[0] == '_' then [] else [s[0]] + UpToUnderscore(s[1..])
  }

  /** `parseInt(selection.split('_')[1])` for a `display_` token: "display"
      holds no underscore, so field 1 is the text after the first underscore
      up to the next one. */
  function SpecificIndex(selection: string): Option<int>
    requires StartsWith(selection, DisplayPrefix)
  {
    ParseInt(UpToUnderscore(selection[|DisplayPrefix|..]))
  }

  /** The selection is a `display_N` token with `0 <= N < count`. */
  predicate NamesDisplay(selection: string, count: nat) {
    StartsWith(selection, DisplayPrefix)
    && SpecificIndex(selection).Some?
    && 0 <= SpecificIndex(selection).value < count
  }

  /** `displays[k]`, which is `undefined` past the end of the list. */
  function Slot(displays: seq<Display>, k: int): Option<Display> {
    if 0 <= k < |displays| then Some(displays[k]) else None
  }

  /** `getTargetDisplays`, with the enumerated displays passed in. The
      default is the first display in enumeration order, whatever display
      the platform calls primary; `'all'` is the whole list; a `display_N`
      token with `N` in range is that one display; anything else, including
      an empty (falsy) token, falls back to the default. */
  function TargetDisplays(selection: string, displays: seq<Display>): (r: seq<Option<Display>>)
    ensures selection == "all" ==> |r| == |displays|
    ensures selection == "all" ==> forall i | 0 <= i < |r| :: r[i] == Some(displays[i])
    ensures selection != "all" && NamesDisplay(selection, |displays|) ==>
      r == [Some(displays[SpecificIndex(selection).value])]
    ensures selection != "all" && !NamesDisplay(selection, |displays|) ==> r == [Slot(displays, 0)]
    ensures |displays| > 0 ==> |r| > 0 && forall i | 0 <= i < |r| :: r[i].Some? && r[i].value in displays
  {
    var fallback := [Slot(displays, 0)];
    if selection != "" then
      if selection == "all" then
        seq(|displays|, i requires 0 <= i < |displays| => Some(displays[i]))
      else if StartsWith(selection, DisplayPrefix) then
        match SpecificIndex(selection)
        case Some(k) => if 0 <= k < |displays| then [Some(displays[k])] else fallback
        case None => fallback  // NaN fails both comparisons
      else
        fallback
    else
      fallback
  }

  /** `'primary'` is the first enumerated display. */
  lemma PrimaryIsFirst(displays: seq<Display>)
    requires |displays| > 0
    ensures TargetDisplays("primary", displays) == [Some(displays[0])]
  {
    assert !StartsWith("primary", DisplayPrefix);
  }

  /** Any token that is neither `'all'` nor an in-range `display_N` resolves
      exactly as `'primary'` does, on every display list. */
  lemma UnmatchedResolvesAsPrimary(selection: string, displays: seq<Display>)
    requires selection != "all" && !NamesDisplay(selection, |displays|)
    ensures TargetDisplays(selection, displays) == TargetDisplays("primary", displays)
  {
    assert !StartsWith("primary", DisplayPrefix);
  }

  /** The `get-displays` reply: each display's position becomes its id, and
      it is flagged primary when its platform id is the primary display's. */
  function DescribeDisplays(displays: seq<Display>, primaryId: int): (r: seq<DisplayInfo>)
    ensures |r| == |displays|
    ensures forall i | 0 <= i < |r| :: r[i].id == i
    ensures forall i | 0 <= i < |r| :: r[i].bounds == displays[i].bounds && r[i].size == displays[i].size
    ensures forall i | 0 <= i < |r| :: r[i].isPrimary <==> displays[i].id == primaryId
  {
    seq(|displays|, i requires 0 <= i < |displays| =>
      DisplayInfo(i, displays[i].bounds, displays[i].size, displays[i].id == primaryId))
  }

  /** The option value the panel gives the display at `index`. */
  function DisplayOption(index: nat): string {
    DisplayPrefix + DecimalString(index)
  }

  /** `populateMonitorOptions`: with more than one display the list is
      rebuilt as `primary`, `all`, then one `display_i` per display in reply
      order; otherwise (`None`) the existing options stay. */
  function MonitorOptions(reply: Option<seq<DisplayInfo>>): (r: Option<seq<string>>)
    ensures r.Some? <==> reply.Some? && |reply.value| > 1
    ensures r.Some? ==> |r.value| == |reply.value| + 2 && r.value[0] == "primary" && r.value[1] == "all"
    ensures r.Some? ==> forall i | 0 <= i < |reply.value| :: r.value[i + 2] == DisplayOption(i)
  {
    match reply
    case Some(infos) =>
      if |infos| > 1 then
        Some(["primary", "all"] + seq(|infos|, i requires 0 <= i < |infos| => DisplayOption(i)))
      else
        None
    case None => None
  }

  /** Every option the panel builds for display `i` selects exactly that
      display. */
  lemma DisplayOptionSelects(index: nat, displays: seq<Display>)
    requires index < |displays|
    ensures TargetDisplays(DisplayOption(index), displays) == [Some(displays[index])]
  {
    var s := DisplayOption(index);
    var digits := DecimalString(index);
    assert s[..|DisplayPrefix|] == DisplayPrefix;
    assert s[|DisplayPrefix|..] == digits;
    assert '_' !in digits by {
      forall i | 0 <= i < |digits|
        ensures digits[i] != '_'
      {
        assert IsDigitIn(digits[i], 10);
      }
    }
    assert UpToUnderscore(digits) == digits;
    ParseIntDecimalString(index);
    assert SpecificIndex(s) == Some(index);
    assert s != "all";
  }

  /** Round trip through the panel: for every entry of a `get-displays`
      reply, the option built for it resolves to the display the entry
      describes. */
  lemma DescribedDisplaySelectsItself(displays: seq<Display>, primaryId: int, i: nat)
    requires i < |displays|
    ensures TargetDisplays(DisplayOption(DescribeDisplays(displays, primaryId)[i].id), displays)
      == [Some(displays[i])]
    ensures displays[i].bounds == DescribeDisplays(displays, primaryId)[i].bounds
  {
    DisplayOptionSelects(i, displays);
  }

  /** Every option the panel can offer resolves to a non-empty list of
      enumerated displays. */
  lemma OptionsResolveToDisplays(displays: seq<Display>, primaryId: int)
    requires |displays| > 1
    ensures var opts := MonitorOptions(Some(DescribeDisplays(displays, primaryId)));
      opts.Some? && forall j | 0 <= j < |opts.value| ::
        var r := TargetDisplays(opts.value[j], displays);
        |r| > 0 && forall k | 0 <= k < |r| :: r[k].Some? && r[k].value in displays
  {
  }
}

=== FILE: jstext.dfy ===
/** The two pieces of JavaScript text/number semantics the app depends on:
    rendering a non-negative array index as a decimal string (the template
    `display_${index}`) and the global `parseInt` called without a radix, as
    ECMAScript defines it (leading white space, one optional sign, a `0x`/`0X`
    prefix that switches to radix 16, then the longest run of digits). */
module JsText {
  import opened Wrappers

  /** Value of a digit character in the sense of `parseInt`: `0`-`9`, then
      the letters (either case) for 10 upwards. */
  function DigitValue(c: char): Option<nat> {
    if '0' <= c <= '9' then Some(c as int - '0' as int)
    else if 'a' <= c <= 'z' then Some(c as int - 'a' as int + 10)
    else if 'A' <= c <= 'Z' then Some(c as int - 'A' as int + 10)
    else None
  }

  predicate IsDigitIn(c: char, radix: nat) {
    DigitValue(c).Some? && DigitValue(c).value < radix
  }

  predicate AllDigitsIn(s: string, radix: nat) {
    forall i | 0 <= i < |s| :: IsDigitIn(s[i], radix)
  }

  /** ECMAScript StrWhiteSpaceChar: WhiteSpace (including every Zs space
      separator) and LineTerminator. */
  predicate IsStrWhiteSpace(c: char) {
    var n := c as int;
    n == 0x09 || n == 0x0A || n == 0x0B || n == 0x0C || n == 0x0D || n == 0x20
    || n == 0xA0 || n == 0x1680 || (0x2000 <= n <= 0x200A) || n == 0x2028
    || n == 0x2029 || n == 0x202F || n == 0x205F || n == 0x3000 || n == 0xFEFF
  }

  /** `s` without its leading white space. */
  function TrimStart(s: string): (r: string)
    ensures |r| <= |s| && r == s[|s| - |r|..]
    ensures forall i | 0 <= i < |s| - |r| :: IsStrWhiteSpace(s[i])
    ensures |r| > 0 ==> !IsStrWhiteSpace(r[0])
  {
    if |s| > 0 && IsStrWhiteSpace(s[0]) then TrimStart(s[1..]) else s
  }

  /** The longest prefix of `s` made of digits of the given radix. */
  function DigitPrefix(s: string, radix: nat): (r: string)
    ensures |r| <= |s| && r == s[..|r|]
    ensures AllDigitsIn(r, radix)
    ensures |r| < |s| ==> !IsDigitIn(s[|r|], radix)
  {
    if |s| == 0 || !IsDigitIn(s[0], radix) then []
    else [s[0]] + DigitPrefix(s[1..], radix)
  }

  /** The number a run of digits denotes, most significant digit first. */
  function DigitsValue(ds: string, radix: nat): nat
    requires AllDigitsIn(ds, radix)
  {
    if |ds| == 0 then 0
    else DigitsValue(ds[..|ds| - 1], radix) * radix + DigitValue(ds[|ds| - 1]).value
  }

  /** `parseInt(s)` with no radix; `None` stands for `NaN`. A negative zero
      (`parseInt("-0")`) is 0 here: both index element 0 of an array. */
  function ParseInt(s: string): Option<int> {
    var t := TrimStart(s);
    var sign := if |t| > 0 && t[0] == '-' then -1 else 1;
    match ParseUnsigned(if |t| > 0 && (t[0] == '-' || t[0] == '+') then t[1..] else t)
    case None => None
    case Some(v) => Some(sign * v)
  }

  /** The digits part of `parseInt`, after the sign: radix 16 behind a
      `0x`/`0X` prefix, radix 10 otherwise. */
  function ParseUnsigned(u: string): Option<nat> {
    if |u| >= 2 && u[0] == '0' && (u[1] == 'x' || u[1] == 'X') then
      ParseDigits(u[2..], 16)
    else
      ParseDigits(u, 10)
  }

  /** The value of the longest digit prefix, or `None` when there is none. */
  function ParseDigits(s: string, radix: nat): Option<nat> {
    var ds := DigitPrefix(s, radix);
    if |ds| == 0 then None else Some(DigitsValue(ds, radix))
  }

  function DigitChar(d: nat): (c: char)
    requires d < 10
    ensures IsDigitIn(c, 10) && DigitValue(c) == Some(d)
  {
    ('0' as int + d) as char
  }

  /** `String(n)` for a non-negative integer: decimal, no leading zeros. */
  function DecimalString(n: nat): (r: string)
    ensures |r| >= 1 && AllDigitsIn(r, 10)
    ensures |r| > 1 ==> r[0] != '0'
  {
    if n < 10 then [DigitChar(n)] else DecimalString(n / 10) + [DigitChar(n % 10)]
  }

  /** Reading back the digits of `DecimalString(n)` gives `n`. */
  lemma {:induction false} DecimalStringValue(n: nat)
    ensures DigitsValue(DecimalString(n), 10) == n
  {
    var r := DecimalString(n);
    if n >= 10 {
      DecimalStringValue(n / 10);
      assert r[..|r| - 1] == DecimalString(n / 10);
    }
  }

  /** A digit run is its own longest digit prefix. */
  lemma {:induction false} DigitPrefixOfDigits(s: string, radix: nat)
    requires AllDigitsIn(s, radix)
    ensures DigitPrefix(s, radix) == s
  {
    if |s| > 0 {
      DigitPrefixOfDigits(s[1..], radix);
    }
  }

  /** Text that starts with neither white space nor a sign is parsed by the
      unsigned part alone. */
  lemma ParseIntUnsigned(s: string)
    requires |s| > 0 && !IsStrWhiteSpace(s[0]) && s[0] != '-' && s[0] != '+'
    ensures ParseInt(s) == (match ParseUnsigned(s) case None => None case Some(v) => Some(v as int))
  {
    assert TrimStart(s) == s;
  }

  /** Text starting with two decimal digits has no `0x` prefix. */
  lemma ParseUnsignedDecimal(s: string)
    requires |s| > 0 && IsDigitIn(s[0], 10) && (|s| >= 2 ==> IsDigitIn(s[1], 10))
    ensures ParseUnsigned(s) == ParseDigits(s, 10)
  {
  }

  /** A non-empty run of decimal digits parses as the number it denotes. */
  lemma ParseIntOfDigits(s: string)
    requires |s| > 0 && AllDigitsIn(s, 10)
    ensures ParseInt(s) == Some(DigitsValue(s, 10))
  {
    assert IsDigitIn(s[0], 10) && (|s| >= 2 ==> IsDigitIn(s[1], 10));
    ParseIntUnsigned(s);
    ParseUnsignedDecimal(s);
    DigitPrefixOfDigits(s, 10);
  }

  /** `parseInt(String(n)) === n` for every array index `n`. */
  lemma ParseIntDecimalString(n: nat)
    ensures ParseInt(DecimalString(n)) == Some(n)
  {
    ParseIntOfDigits(DecimalString(n));
    DecimalStringValue(n);
  }

  /** A string that starts with anything other than white space, a sign or a
      decimal digit does not parse: `parseInt` returns `NaN`. */
  lemma ParseIntRejects(s: string)
    requires |s| == 0 || (!IsStrWhiteSpace(s[0]) && s[0] != '-' && s[0] != '+' && !IsDigitIn(s[0], 10))
    ensures ParseInt(s) == None
  {
    if |s| > 0 {
      assert TrimStart(s) == s;
    }
  }

  /** Decimal digits followed by anything else parse as the digits alone
      (`parseInt("2abc") === 2`), unless the text starts with `0x`. */
  lemma ParseIntStopsAtNonDigit(ds: string, rest: string)
    requires |ds| > 0 && AllDigitsIn(ds, 10)
    requires |rest| == 0 || !IsDigitIn(rest[0], 10)
    requires !(|ds| == 1 && ds[0] == '0' && |rest| > 0 && (rest[0] == 'x' || rest[0] == 'X'))
    ensures ParseInt(ds + rest) == Some(DigitsValue(ds, 10))
  {
    var s := ds + rest;
    assert s[0] == ds[0] && IsDigitIn(s[0], 10);
    ParseIntUnsigned(s);
    assert ParseUnsigned(s) == ParseDigits(s, 10) by {
      if |s| >= 2 && |ds| >= 2 {
        assert s[1] == ds[1];
        ParseUnsignedDecimal(s);
      }
    }
    PrefixStops(ds, rest);
  }

  lemma {:induction false} PrefixStops(ds: string, rest: string)
    requires AllDigitsIn(ds, 10)
    requires |rest| == 0 || !IsDigitIn(rest[0], 10)
    ensures DigitPrefix(ds + rest, 10) == ds
  {
    if |ds| > 0 {
      assert (ds + rest)[1..] == ds[1..] + rest;
      PrefixStops(ds[1..], rest);
    } else {
      assert ds + rest == rest;
    }
  }
}

=== FILE: mappings.dfy ===
/** Pure numeric mappings of the control panel: pointer position to slider
    value, and the clamps of the in-page ("DOM") ring used when the overlay
    windows are unavailable. */
module Mappings {

  /** `Math.max(lo, Math.min(hi, x))` with `lo <= hi`. */
  function Clamp(lo: real, hi: real, x: real): (r: real)
    requires lo <= hi
    ensures lo <= r <= hi
    ensures lo <= x <= hi ==> r == x
    ensures x < lo ==> r == lo
    ensures hi < x ==> r == hi
  {
    var m := if hi < x then hi else x;
    if lo < m then m else lo
  }

  lemma ClampMonotone(lo: real, hi: real, x: real, y: real)
    requires lo <= hi && x <= y
    ensures Clamp(lo, hi, x) <= Clamp(lo, hi, y)
  {
  }

  /** Slider value for a pointer `offset` pixels from the track's top (or
      left) edge on a track `extent` pixels long. Vertical sliders grow
      upwards, so they read `100 - offset%`. A rendered track is never of
      negative extent; on a zero extent the quotient is an infinity that the
      clamp pins to an end, and only a pointer exactly on the edge (0/0,
      which is NaN) is not a number. */
  function SliderValueAt(vertical: bool, offset: real, extent: real): (v: real)
    requires extent >= 0.0 && (extent > 0.0 || offset != 0.0)
    ensures 0.0 <= v <= 100.0
    ensures 0.0 <= offset <= extent && !vertical ==> v == offset / extent * 100.0
    ensures 0.0 <= offset <= extent && vertical ==> v == 100.0 - offset / extent * 100.0
    ensures offset <= 0.0 ==> v == (if vertical then 100.0 else 0.0)
    ensures extent <= offset ==> v == (if vertical then 0.0 else 100.0)
  {
    if extent == 0.0 then
      // `offset / 0` is -Infinity or +Infinity.
      if (offset < 0.0) == vertical then 100.0 else 0.0
    else if vertical then Clamp(0.0, 100.0, 100.0 - offset / extent * 100.0)
    else Clamp(0.0, 100.0, offset / extent * 100.0)
  }

  /** A vertical slider reads the mirror image of a horizontal one. */
  lemma VerticalIsInverted(offset: real, extent: real)
    requires extent >= 0.0 && (extent > 0.0 || offset != 0.0)
    ensures SliderValueAt(true, offset, extent) == 100.0 - SliderValueAt(false, offset, extent)
  {
  }

  /** Border width in pixels of the in-page ring for a thickness value. */
  function BorderWidth(thickness: real): (px: real)
    ensures 2.0 <= px <= 300.0
    ensures 2.0 <= thickness * 3.0 <= 300.0 ==> px == thickness * 3.0
    ensures thickness <= 0.0 ==> px == 2.0
    ensures 100.0 <= thickness ==> px == 300.0
  {
    Clamp(2.0, 300.0, thickness / 100.0 * 300.0)
  }

  /** Opacity of the in-page ring for a brightness value. */
  function Opacity(brightness: real): (o: real)
    ensures 0.1 <= o <= 1.0
    ensures 10.0 <= brightness <= 100.0 ==> o == brightness / 100.0
    ensures brightness <= 0.0 ==> o == 0.1
  {
    Clamp(0.1, 1.0, brightness / 100.0)
  }

  /** Width and height in pixels of the in-page ring for a size value. */
  function RingPixels(size: real): (px: real)
    ensures 100.0 <= px <= 1200.0
    ensures 100.0 <= size * 12.0 <= 1200.0 ==> px == size * 12.0
    ensures size <= 0.0 ==> px == 100.0
    ensures 100.0 <= size ==> px == 1200.0
  {
    Clamp(100.0, 1200.0, size / 100.0 * 1200.0)
  }

  /** Each in-page mapping is monotone in its slider value. */
  lemma DomMappingsMonotone(x: real, y: real)
    requires x <= y
    ensures BorderWidth(x) <= BorderWidth(y)
    ensures Opacity(x) <= Opacity(y)
    ensures RingPixels(x) <= RingPixels(y)
  {
    ClampMonotone(2.0, 300.0, x / 100.0 * 300.0, y / 100.0 * 300.0);
    ClampMonotone(0.1, 1.0, x / 100.0, y / 100.0);
    ClampMonotone(100.0, 1200.0, x / 100.0 * 1200.0, y / 100.0 * 1200.0);
  }
}

=== FILE: overlay_properties.dfy ===
/** Properties of the overlay registry over several IPC calls. */
module OverlayProperties {
  import opened Wrappers
  import opened Ring
  import opened Displays
  import opened Overlays

  /** Every window that is not destroyed is reachable from the map, so
      `hide-ring-overlay` can close it. */
  predicate NoOrphans(m: Main) {
    forall s | s in m.windows && !m.windows[s].destroyed :: s in m.overlays
  }

  function Elements(s: seq<nat>): set<nat> {
    set x | x in s
  }

  lemma {:induction false} InjectiveElements(s: seq<nat>)
    requires Injective(s)
    ensures |Elements(s)| == |s|
  {
    if |s| > 0 {
      var t := s[1..];
      assert Injective(t) by {
        forall j, k | 0 <= j < k < |t| ensures t[j] != t[k] {
          assert t[j] == s[j + 1] && t[k] == s[k + 1];
        }
      }
      InjectiveElements(t);
      assert s[0] !in t by {
        forall k | 0 <= k < |t| ensures t[k] != s[0] {
          assert t[k] == s[k + 1];
        }
      }
      assert Elements(s) == Elements(t) + {s[0]} by {
        assert s == [s[0]] + t;
      }
    }
  }

  /** `hide-ring-overlay` twice is `hide-ring-overlay` once, and on an empty
      registry it succeeds without a change. */
  lemma HideIdempotent(m: Main)
    requires Valid(m)
    ensures HideRingOverlay(HideRingOverlay(m).0) == HideRingOverlay(m)
    ensures HideRingOverlay(Start) == (Start, Done)
  {
    var h := HideRingOverlay(m).0;
    var h2 := HideRingOverlay(h).0;
    assert h2.windows == h.windows;
  }

  /** Hiding closes exactly the windows the map refers to: windows that had
      dropped out of the map stay open. */
  lemma HideClosesReferenced(m: Main)
    requires Valid(m)
    ensures LiveWindows(HideRingOverlay(m).0) == LiveWindows(m) - Elements(m.overlays)
  {
  }

  /** From a registry without orphans, a hide followed by a show leaves
      exactly one live window per target display, all reachable from the
      map, and the update handler then reaches all of them. */
  lemma HideThenShow(m: Main, data: RingData, displays: seq<Display>)
    requires Valid(m) && NoOrphans(m) && |displays| > 0
    ensures var r := ShowRingOverlay(HideRingOverlay(m).0, data, displays);
      && r.1 == Shown(|ShowTargets(data, displays)|)
      && NoOrphans(r.0)
      && LiveWindows(r.0) == Elements(r.0.overlays)
      && |LiveWindows(r.0)| == |ShowTargets(data, displays)|
      && |LiveKeys(r.0)| == |ShowTargets(data, displays)|
  {
    var h := HideRingOverlay(m).0;
    assert forall s | s in h.windows :: h.windows[s].destroyed;
    ShowOnClosed(h, data, displays);
  }

  /** A show on a registry with an empty map and no open window. */
  lemma ShowOnClosed(h: Main, data: RingData, displays: seq<Display>)
    requires Valid(h) && h.overlays == [] && |displays| > 0
    requires forall s | s in h.windows :: h.windows[s].destroyed
    ensures var r := ShowRingOverlay(h, data, displays);
      && r.1 == Shown(|ShowTargets(data, displays)|)
      && NoOrphans(r.0)
      && LiveWindows(r.0) == Elements(r.0.overlays)
      && |LiveWindows(r.0)| == |ShowTargets(data, displays)|
      && |LiveKeys(r.0)| == |ShowTargets(data, displays)|
  {
    var r := ShowRingOverlay(h, data, displays);
    var targets := ShowTargets(data, displays);
    assert forall k | 0 <= k < |targets| :: r.0.overlays[k] == h.next + k;
    assert forall k | 0 <= k < |targets| :: !r.0.windows[r.0.overlays[k]].destroyed;
    FreshWindowsOnly(h, r.0, |targets|);
  }

  /** A registry whose map holds exactly `n` new live windows, serials
      `h.next` onwards, on top of a registry `h` with no open window. */
  lemma FreshWindowsOnly(h: Main, r: Main, n: nat)
    requires Valid(h) && Valid(r) && |r.overlays| == n
    requires forall s | s in h.windows :: h.windows[s].destroyed
    requires forall k | 0 <= k < n :: r.overlays[k] == h.next + k
    requires forall k | 0 <= k < n :: !r.windows[r.overlays[k]].destroyed
    requires forall s | s in h.windows :: s in r.windows && r.windows[s] == h.windows[s]
    requires forall s :: s in r.windows <==> s in h.windows || h.next <= s < h.next + n
    ensures NoOrphans(r)
    ensures LiveWindows(r) == Elements(r.overlays)
    ensures |LiveWindows(r)| == n && |LiveKeys(r)| == n
  {
    forall s | s in r.windows && !r.windows[s].destroyed
      ensures s in r.overlays
    {
      assert s !in h.windows;
      var k := s - h.next;
      assert r.overlays[k] == s;
    }
    forall s | s in r.overlays
      ensures s in r.windows && !r.windows[s].destroyed
    {
      var k :| 0 <= k < n && r.overlays[k] == s;
    }
    assert LiveWindows(r) == Elements(r.overlays);
    InjectiveElements(r.overlays);
    AllLiveCount(r.windows, r.overlays, 0);
  }

  /** When every key's window is live, the live keys from `i` on are all
      the keys from `i` on. */
  lemma {:induction false} AllLiveCount(windows: map<nat, Window>, overlays: seq<nat>, i: nat)
    requires Refers(windows, overlays) && i <= |overlays|
    requires forall k | 0 <= k < |overlays| :: !windows[overlays[k]].destroyed
    ensures |LiveFrom(windows, overlays, i)| == |overlays| - i
    decreases |overlays| - i
  {
    if i < |overlays| {
      LiveFromStep(windows, overlays, i);
      AllLiveCount(windows, overlays, i + 1);
    } else {
      assert LiveFrom(windows, overlays, i) == {};
    }
  }

  /** Updating the overlays changes no window's liveness. */
  lemma UpdateKeepsLiveKeys(m: Main, u: Update)
    requires Valid(m)
    ensures LiveKeys(UpdateRingProperties(m, u).0) == LiveKeys(m)
  {
    var r := UpdateRingProperties(m, u).0;
    assert forall s | s in m.windows :: r.windows[s].destroyed == m.windows[s].destroyed;
  }

  lemma UpdateKeepsLiveWindows(m: Main, u: Update)
    requires Valid(m)
    ensures LiveWindows(UpdateRingProperties(m, u).0) == LiveWindows(m)
    ensures NoOrphans(m) ==> NoOrphans(UpdateRingProperties(m, u).0)
  {
    var r := UpdateRingProperties(m, u).0;
    assert forall s | s in m.windows :: r.windows[s].destroyed == m.windows[s].destroyed;
  }

  /** After a hide and a show, from a registry without orphans, a property
      update reaches exactly one window per target display, and only
      windows that are live. */
  lemma UpdateAfterShowReachesTargets(m: Main, data: RingData, displays: seq<Display>, u: Update)
    requires Valid(m) && NoOrphans(m) && |displays| > 0
    ensures var shown := ShowRingOverlay(HideRingOverlay(m).0, data, displays).0;
      var r := UpdateRingProperties(shown, u);
      && r.1 == Updated(|ShowTargets(data, displays)|)
      && NoOrphans(r.0) && |LiveWindows(r.0)| == |ShowTargets(data, displays)|
      && forall s | s in shown.windows && !shown.windows[s].destroyed :: r.0.windows[s].sent == shown.windows[s].sent + [u]
  {
    var shown := ShowRingOverlay(HideRingOverlay(m).0, data, displays).0;
    HideThenShow(m, data, displays);
    UpdateKeepsLiveWindows(shown, u);
  }

  /** `count` rounds of power-off then power-on against the same displays. */
  function Cycles(m: Main, data: RingData, displays: seq<Display>, count: nat): (r: Main)
    requires Valid(m)
    ensures Valid(r)
    decreases count
  {
    if count == 0 then m
    else Cycles(ShowRingOverlay(HideRingOverlay(m).0, data, displays).0, data, displays, count - 1)
  }

  /** However many rounds of hide and show, the number of live overlay
      windows is the number of target displays: no surface leaks. */
  lemma {:induction false} CyclesDoNotLeak(m: Main, data: RingData, displays: seq<Display>, count: nat)
    requires Valid(m) && NoOrphans(m) && |displays| > 0 && count > 0
    ensures NoOrphans(Cycles(m, data, displays, count))
    ensures |LiveWindows(Cycles(m, data, displays, count))| == |ShowTargets(data, displays)|
    decreases count
  {
    var m' := ShowRingOverlay(HideRingOverlay(m).0, data, displays).0;
    HideThenShow(m, data, displays);
    if count > 1 {
      CyclesDoNotLeak(m', data, displays, count - 1);
    }
  }

  /** A show that reuses key `k` drops the open window there from the map
      without closing it, and the hide that follows cannot reach it. */
  lemma ReplacedStaysOpen(m: Main, data: RingData, displays: seq<Display>, k: nat)
    requires Valid(m) && |displays| > 0
    requires k < |m.overlays| && k < |ShowTargets(data, displays)|
    requires !m.windows[m.overlays[k]].destroyed
    ensures var m3 := HideRingOverlay(ShowRingOverlay(m, data, displays).0).0;
      m.overlays[k] in m3.windows && !m3.windows[m.overlays[k]].destroyed
  {
    var m2 := ShowRingOverlay(m, data, displays).0;
    var s := m.overlays[k];
    assert m2.windows[s] == m.windows[s];
    forall j | 0 <= j < |m2.overlays| ensures m2.overlays[j] != s {
      if j >= |ShowTargets(data, displays)| {
        assert m2.overlays[j] == m.overlays[j];
      }
    }
  }

  /** Two shows without a hide in between leak: every window the first
      show put under a key the second show reuses is replaced in the map
      without being closed, and the hide that follows leaves it open. */
  lemma ShowOverShowLeaks(m: Main, data: RingData, displays: seq<Display>,
                          data2: RingData, displays2: seq<Display>)
    requires Valid(m) && |displays| > 0 && |displays2| > 0
    ensures var m1 := ShowRingOverlay(m, data, displays).0;
      var m3 := HideRingOverlay(ShowRingOverlay(m1, data2, displays2).0).0;
      && m3.overlays == []
      && forall k | 0 <= k < |ShowTargets(data, displays)| && k < |ShowTargets(data2, displays2)| ::
           m1.overlays[k] in m3.windows && !m3.windows[m1.overlays[k]].destroyed
  {
    var m1 := ShowRingOverlay(m, data, displays).0;
    forall k | 0 <= k < |ShowTargets(data, displays)| && k < |ShowTargets(data2, displays2)|
      ensures var m3 := HideRingOverlay(ShowRingOverlay(m1, data2, displays2).0).0;
        m1.overlays[k] in m3.windows && !m3.windows[m1.overlays[k]].destroyed
    {
      ReplacedStaysOpen(m1, data2, displays2, k);
    }
  }

  /** Closing one window from outside removes from the live keys exactly
      the key that refers to it. */
  lemma DestroyLiveKeys(m: Main, serial: nat)
    requires Valid(m)
    ensures forall k | 0 <= k < |m.overlays| ::
      k in LiveKeys(DestroyWindow(m, serial)) <==> k in LiveKeys(m) && m.overlays[k] != serial
    ensures LiveKeys(DestroyWindow(m, serial)) <= LiveKeys(m)
  {
    var d := DestroyWindow(m, serial);
    assert d.overlays == m.overlays;
    forall k | 0 <= k < |m.overlays|
      ensures d.windows[m.overlays[k]].destroyed == (m.windows[m.overlays[k]].destroyed || m.overlays[k] == serial)
    {
    }
  }

  /** Closing a window the map holds open costs one live key; closing one
      it does not hold costs none. */
  lemma DestroyLiveCount(m: Main, serial: nat)
    requires Valid(m)
    ensures serial in m.overlays && serial in m.windows && !m.windows[serial].destroyed ==>
      |LiveKeys(DestroyWindow(m, serial))| == |LiveKeys(m)| - 1
    ensures serial !in m.overlays ==> |LiveKeys(DestroyWindow(m, serial))| == |LiveKeys(m)|
  {
    var d := DestroyWindow(m, serial);
    DestroyLiveKeys(m, serial);
    if serial in m.overlays {
      var k0 :| 0 <= k0 < |m.overlays| && m.overlays[k0] == serial;
      if serial in m.windows && !m.windows[serial].destroyed {
        assert k0 in LiveKeys(m);
        assert LiveKeys(d) == LiveKeys(m) - {k0};
      }
    } else {
      assert LiveKeys(d) == LiveKeys(m);
    }
  }

  /** A window closed from outside the handlers drops out of every later
      update: it receives nothing more, and the reply counts one live key
      fewer when the map held it open. */
  lemma ClosedWindowMissesUpdates(m: Main, serial: nat, u: Update)
    requires Valid(m) && serial in m.windows
    ensures var r := UpdateRingProperties(DestroyWindow(m, serial), u);
      && r.0.windows[serial].sent == m.windows[serial].sent
      && r.1.Updated?
      && (serial in m.overlays && !m.windows[serial].destroyed ==> r.1.updatedCount + 1 == |LiveKeys(m)|)
      && (serial !in m.overlays ==> r.1 == Updated(|LiveKeys(m)|))
  {
    DestroyLiveCount(m, serial);
    var d := DestroyWindow(m, serial);
    assert d.windows[serial].destroyed && d.windows[serial].sent == m.windows[serial].sent;
  }

  /** Enabling or disabling mouse events closes nothing and opens
      nothing: the live windows and the live keys of the map stay as they
      were. */
  lemma MouseEventsKeepLive(m: Main, ignore: bool)
    requires Valid(m)
    ensures LiveWindows(SetMouseEvents(m, ignore).0) == LiveWindows(m)
    ensures LiveKeys(SetMouseEvents(m, ignore).0) == LiveKeys(m)
  {
  }

  /** Of two pass-through requests in a row, the last wins: the first
      leaves no trace, so disabling then enabling restores exactly what
      enabling alone gives. */
  lemma MouseEventsLastWins(m: Main, first: bool, second: bool)
    requires Valid(m)
    ensures SetMouseEvents(SetMouseEvents(m, first).0, second) == SetMouseEvents(m, second)
  {
    var a := SetMouseEvents(SetMouseEvents(m, first).0, second).0;
    var b := SetMouseEvents(m, second).0;
    assert a.windows.Keys == b.windows.Keys;
    forall s | s in a.windows ensures a.windows[s] == b.windows[s] {
    }
    assert a.windows == b.windows;
  }

  /** Pass-through set on every live window of the map the last show
      created: with the map fresh from a hide and a show, each window the
      show opened gets exactly the requested setting. */
  lemma MouseEventsReachShownWindows(m: Main, data: RingData, displays: seq<Display>, ignore: bool)
    requires Valid(m) && |displays| > 0
    ensures var shown := ShowRingOverlay(HideRingOverlay(m).0, data, displays).0;
      var r := SetMouseEvents(shown, ignore).0;
      forall k | 0 <= k < |shown.overlays| :: r.windows[shown.overlays[k]].ignoreMouse == ignore
  {
    var h := HideRingOverlay(m).0;
    var shown := ShowRingOverlay(h, data, displays).0;
    assert |shown.overlays| == |ShowTargets(data, displays)|;
  }

  /** The initial properties reach a window at most once. */
  lemma InitialPropsOnce(m: Main, serial: nat)
    requires Valid(m)
    ensures DeliverInitialProps(DeliverInitialProps(m, serial), serial) == DeliverInitialProps(m, serial)
  {
  }
}

=== FILE: overlays.dfy ===
/** The main process's overlay registry: the `overlayWindows` map as the
    IPC handlers `show-ring-overlay`, `hide-ring-overlay`,
    `update-ring-properties`, `enable-mouse-events` and
    `disable-mouse-events` change it.

    Windows are objects, so they live in a heap keyed by a creation serial;
    `overlayWindows` maps a target position to a window. Its keys are only
    ever written by the show loop, for positions 0, 1, ... in order, and
    removed all at once by `clear()`, so they are always 0..K-1 in insertion
    order: the map is represented by the sequence of its values, and
    `forEach` visits that sequence front to back. */
module Overlays {
  import opened Wrappers
  import opened Color
  import opened Ring
  import opened Displays

  /** One overlay window. */
  datatype Window = Window(
    bounds: Bounds,           // the display area it covers
    destroyed: bool,          // `isDestroyed()`
    ignoreMouse: bool,        // pointer input passes through to windows beneath
    sent: seq<Update>,        // `update-ring` messages received, oldest first
    initial: Option<Update>)  // initial properties not yet sent after readiness

  datatype Main = Main(
    windows: map<nat, Window>,  // every window created, by serial
    overlays: seq<nat>,         // `overlayWindows`: position -> window serial
    next: nat)                  // serial of the next window created

  /** The `{ success, ... }` object each handler resolves to. */
  datatype Reply = Shown(displays: nat) | Done | Updated(updatedCount: nat) | Failed

  const Start: Main := Main(map[], [], 0)

  predicate Injective(s: seq<nat>) {
    forall j, k | 0 <= j < k < |s| :: s[j] != s[k]
  }

  predicate Refers(windows: map<nat, Window>, overlays: seq<nat>) {
    forall k | 0 <= k < |overlays| :: overlays[k] in windows
  }

  /** Every key refers to a created window, serials are below `next`, and no
      window is stored under two keys. */
  predicate Valid(m: Main) {
    && Refers(m.windows, m.overlays)
    && (forall s | s in m.windows :: s < m.next)
    && Injective(m.overlays)
  }

  /** Keys from `i` on whose window is not destroyed. */
  function LiveFrom(windows: map<nat, Window>, overlays: seq<nat>, i: nat): set<int>
    requires Refers(windows, overlays)
  {
    set k | i <= k < |overlays| && !windows[overlays[k]].destroyed
  }

  /** The keys of `overlayWindows` whose window is not destroyed. */
  function LiveKeys(m: Main): set<int>
    requires Valid(m)
  {
    LiveFrom(m.windows, m.overlays, 0)
  }

  /** Windows not destroyed, referenced from the map or not. */
  function LiveWindows(m: Main): set<nat> {
    set s | s in m.windows && !m.windows[s].destroyed
  }

  /** What a handler's loop does to each live window. */
  datatype Action = Close | Send(u: Update) | SetIgnoreMouse(ignore: bool)

  function Perform(w: Window, a: Action): Window {
    match a
    case Close => w.(destroyed := true)
    case Send(u) => w.(sent := w.sent + [u])
    case SetIgnoreMouse(b) => w.(ignoreMouse := b)
  }

  lemma LiveFromStep(windows: map<nat, Window>, overlays: seq<nat>, i: nat)
    requires Refers(windows, overlays) && i < |overlays|
    ensures !windows[overlays[i]].destroyed ==>
      LiveFrom(windows, overlays, i) == LiveFrom(windows, overlays, i + 1) + {i}
    ensures windows[overlays[i]].destroyed ==>
      LiveFrom(windows, overlays, i) == LiveFrom(windows, overlays, i + 1)
    ensures i !in LiveFrom(windows, overlays, i + 1)
  {
  }

  /** `overlayWindows.forEach((window) => { if (window && !window.isDestroyed()) ... })`
      from key `i` on: the action reaches every live window the map refers
      to, once, and nothing else; the count is how many it reached. */
  function ForEachLive(windows: map<nat, Window>, overlays: seq<nat>, a: Action, i: nat)
    : (r: (map<nat, Window>, nat))
    requires i <= |overlays| && Refers(windows, overlays) && Injective(overlays)
    ensures r.0.Keys == windows.Keys
    ensures forall s | s in windows ::
      r.0[s] == (if s in overlays[i..] && !windows[s].destroyed then Perform(windows[s], a) else windows[s])
    ensures r.1 == |LiveFrom(windows, overlays, i)|
    decreases |overlays| - i
  {
    if i == |overlays| then
      (windows, 0)
    else
      var s := overlays[i];
      LiveFromStep(windows, overlays, i);
      assert s !in overlays[i + 1..] by {
        forall k | i + 1 <= k < |overlays| ensures overlays[k] != s {}
      }
      assert forall t | t != s :: t in overlays[i..] <==> t in overlays[i + 1..] by {
        assert overlays[i..] == [s] + overlays[i + 1..];
      }
      if !windows[s].destroyed then
        var touched := windows[s := Perform(windows[s], a)];
        assert LiveFrom(touched, overlays, i + 1) == LiveFrom(windows, overlays, i + 1) by {
          forall k | i + 1 <= k < |overlays| ensures overlays[k] != s {}
        }
        var rest := ForEachLive(touched, overlays, a, i + 1);
        (rest.0, rest.1 + 1)
      else
        ForEachLive(windows, overlays, a, i + 1)
  }

  /** `hide-ring-overlay`: close every live window the map refers to, then
      clear the map. Windows no longer in the map are not touched. */
  function HideRingOverlay(m: Main): (r: (Main, Reply))
    requires Valid(m)
    ensures Valid(r.0) && r.1 == Done
    ensures r.0.overlays == [] && r.0.next == m.next && r.0.windows.Keys == m.windows.Keys
    ensures forall s | s in m.windows ::
      r.0.windows[s].destroyed == (m.windows[s].destroyed || s in m.overlays)
    ensures forall s | s in m.windows ::
      r.0.windows[s] == m.windows[s].(destroyed := r.0.windows[s].destroyed)
  {
    var closed := ForEachLive(m.windows, m.overlays, Close, 0);
    assert m.overlays[0..] == m.overlays;
    (Main(closed.0, [], m.next), Done)
  }

  /** `update-ring-properties`: send the properties to every live window the
      map refers to; `updatedCount` is the number of live keys. */
  function UpdateRingProperties(m: Main, u: Update): (r: (Main, Reply))
    requires Valid(m)
    ensures Valid(r.0) && r.0.overlays == m.overlays && r.0.next == m.next
    ensures r.0.windows.Keys == m.windows.Keys
    ensures forall s | s in m.windows ::
      r.0.windows[s].sent ==
        (if s in m.overlays && !m.windows[s].destroyed then m.windows[s].sent + [u] else m.windows[s].sent)
    ensures forall s | s in m.windows :: r.0.windows[s] == m.windows[s].(sent := r.0.windows[s].sent)
    ensures r.1 == Updated(|LiveKeys(m)|)
  {
    var sent := ForEachLive(m.windows, m.overlays, Send(u), 0);
    assert m.overlays[0..] == m.overlays;
    (m.(windows := sent.0), Updated(sent.1))
  }

  /** `enable-mouse-events` (`ignore` false) and `disable-mouse-events`
      (`ignore` true): set pointer pass-through on every live window the map
      refers to. */
  function SetMouseEvents(m: Main, ignore: bool): (r: (Main, Reply))
    requires Valid(m)
    ensures Valid(r.0) && r.1 == Done && r.0.overlays == m.overlays && r.0.next == m.next
    ensures r.0.windows.Keys == m.windows.Keys
    ensures forall s | s in m.windows ::
      r.0.windows[s].ignoreMouse ==
        (if s in m.overlays && !m.windows[s].destroyed then ignore else m.windows[s].ignoreMouse)
    ensures forall s | s in m.windows ::
      r.0.windows[s] == m.windows[s].(ignoreMouse := r.0.windows[s].ignoreMouse)
  {
    var set_ := ForEachLive(m.windows, m.overlays, SetIgnoreMouse(ignore), 0);
    assert m.overlays[0..] == m.overlays;
    (m.(windows := set_.0), Done)
  }

  /** `x || d` for a number: zero is falsy and gives way to the default. */
  function OrDefault(x: real, d: real): real {
    if x == 0.0 then d else x
  }

  /** The properties sent to a new window once it is ready: every value
      that is zero is replaced by its default (thickness 50, brightness 100,
      warmth 50, size 25); non-zero values are kept. */
  function InitialProps(data: RingData): (u: Update)
    ensures u.AllProps? && u.color == data.color
    ensures u.thickness != 0.0 && u.brightness != 0.0 && u.warmth != 0.0 && u.size != 0.0
    ensures data.thickness != 0.0 ==> u.thickness == data.thickness
    ensures data.brightness != 0.0 ==> u.brightness == data.brightness
    ensures data.warmth != 0.0 ==> u.warmth == data.warmth
    ensures data.size != 0.0 ==> u.size == data.size
    ensures data.thickness == 0.0 ==> u.thickness == 50.0
    ensures data.brightness == 0.0 ==> u.brightness == 100.0
    ensures data.warmth == 0.0 ==> u.warmth == 50.0
    ensures data.size == 0.0 ==> u.size == 25.0
  {
    AllProps(OrDefault(data.thickness, 50.0), OrDefault(data.brightness, 100.0),
             OrDefault(data.warmth, 50.0), data.color, OrDefault(data.size, 25.0))
  }

  /** A window as created: covering the display, not destroyed, forwarding
      mouse events, nothing sent yet, initial properties pending. */
  function NewWindow(d: Display, data: RingData): Window {
    Window(d.bounds, false, true, [], Some(InitialProps(data)))
  }

  function Max(a: int, b: int): int {
    if a < b then b else a
  }

  /** The first position at or after `i` holding no display. */
  function FirstMissing(targets: seq<Option<Display>>, i: nat): (j: nat)
    requires i <= |targets|
    ensures i <= j <= |targets|
    ensures forall k | i <= k < j :: targets[k].Some?
    ensures j < |targets| ==> targets[j].None?
    decreases |targets| - i
  {
    if i == |targets| || targets[i].None? then i else FirstMissing(targets, i + 1)
  }

  /** The show loop from position `i` on: every target gets a fresh window
      stored under its position, replacing (without closing) whatever was
      there. An `undefined` target throws when its bounds are read, which
      ends the loop and keeps the windows already made; the flag reports
      whether the loop ran to the end. */
  function CreateFrom(m: Main, targets: seq<Option<Display>>, data: RingData, i: nat): (r: (Main, bool))
    requires Valid(m) && i <= |targets| && i <= |m.overlays|
    ensures Valid(r.0)
    ensures r.1 <==> FirstMissing(targets, i) == |targets|
    ensures r.0.next == m.next + (FirstMissing(targets, i) - i)
    ensures |r.0.overlays| == Max(|m.overlays|, FirstMissing(targets, i))
    ensures forall k | 0 <= k < |r.0.overlays| ::
      r.0.overlays[k] == if i <= k < FirstMissing(targets, i) then m.next + (k - i) else m.overlays[k]
    ensures forall k | i <= k < FirstMissing(targets, i) ::
      r.0.overlays[k] in r.0.windows && r.0.windows[r.0.overlays[k]] == NewWindow(targets[k].value, data)
    ensures forall s :: s in r.0.windows <==> s in m.windows || m.next <= s < r.0.next
    ensures forall s | s in m.windows :: r.0.windows[s] == m.windows[s]
    decreases |targets| - i
  {
    if i == |targets| then
      (m, true)
    else
      match targets[i]
      case None => (m, false)
      case Some(d) =>
        var m' := Place(m, i, NewWindow(d, data));
        var r := CreateFrom(m', targets, data, i + 1);
        var j := FirstMissing(targets, i + 1);
        assert FirstMissing(targets, i) == j && i < j;
        assert Max(|m'.overlays|, j) == Max(|m.overlays|, j);
        assert r.0.overlays[i] == m.next;
        r
  }

  /** `overlayWindows.set(i, w)` for a freshly created window `w`, with
      `i` at most one past the last key. */
  function Place(m: Main, i: nat, w: Window): (r: Main)
    requires Valid(m) && i <= |m.overlays|
    ensures Valid(r) && r.next == m.next + 1
    ensures r.windows == m.windows[m.next := w] && m.next !in m.windows
    ensures |r.overlays| == Max(|m.overlays|, i + 1) && r.overlays[i] == m.next
    ensures forall k | 0 <= k < |m.overlays| && k != i :: r.overlays[k] == m.overlays[k]
  {
    var overlays := if i < |m.overlays| then m.overlays[i := m.next] else m.overlays + [m.next];
    var r := Main(m.windows[m.next := w], overlays, m.next + 1);
    assert Valid(r) by {
      forall k | 0 <= k < |overlays| && k != i ensures overlays[k] == m.overlays[k] && overlays[k] < m.next {}
    }
    r
  }

  /** The display list `show-ring-overlay` targets:
      `ringData?.monitor || 'primary'` resolved by `getTargetDisplays`. */
  function ShowTargets(data: RingData, displays: seq<Display>): seq<Option<Display>> {
    TargetDisplays(if data.monitor == "" then "primary" else data.monitor, displays)
  }

  /** `show-ring-overlay`: with at least one display, keys 0..n-1 get fresh
      live windows covering the n target displays and the reply is
      `displays: n`; keys from n on keep their old windows, and no existing
      window is closed or changed. With no display at all the first target
      is `undefined` and the handler fails without a change (except for
      `'all'`, which targets nothing and succeeds with 0). */
  function ShowRingOverlay(m: Main, data: RingData, displays: seq<Display>): (r: (Main, Reply))
    requires Valid(m)
    ensures Valid(r.0)
    ensures |displays| > 0 ==>
      var targets := ShowTargets(data, displays);
      && r.1 == Shown(|targets|) && |targets| > 0
      && r.0.next == m.next + |targets|
      && |r.0.overlays| == Max(|m.overlays|, |targets|)
      && (forall k | 0 <= k < |targets| :: r.0.overlays[k] == m.next + k)
      && (forall k | 0 <= k < |targets| :: r.0.windows[r.0.overlays[k]] == NewWindow(targets[k].value, data))
      && (forall k | |targets| <= k < |m.overlays| :: r.0.overlays[k] == m.overlays[k])
      && (forall s :: s in r.0.windows <==> s in m.windows || m.next <= s < m.next + |targets|)
    ensures |displays| == 0 ==> r.0 == m && r.1 == (if data.monitor == "all" then Shown(0) else Failed)
    ensures forall s | s in m.windows :: s in r.0.windows && r.0.windows[s] == m.windows[s]
  {
    var targets := ShowTargets(data, displays);
    var created := CreateFrom(m, targets, data, 0);
    (created.0, if created.1 then Shown(|targets|) else Failed)
  }

  /** The delayed initial send of one window (ready-to-show, then 500 ms):
      a window destroyed in the meantime gets nothing; a live one gets its
      pending properties. Either way nothing is pending afterwards. */
  function DeliverInitialProps(m: Main, serial: nat): (r: Main)
    requires Valid(m)
    ensures Valid(r) && r.overlays == m.overlays && r.next == m.next
    ensures r.windows.Keys == m.windows.Keys
    ensures forall s | s in m.windows && s != serial :: r.windows[s] == m.windows[s]
    ensures serial in m.windows ==> r.windows[serial].initial.None?
    ensures serial in m.windows && m.windows[serial].destroyed ==>
      r.windows[serial] == m.windows[serial].(initial := None)
    ensures serial in m.windows && !m.windows[serial].destroyed && m.windows[serial].initial.Some? ==>
      r.windows[serial].sent == m.windows[serial].sent + [m.windows[serial].initial.value]
  {
    if serial in m.windows && m.windows[serial].initial.Some? then
      var w := m.windows[serial];
      var w' := if w.destroyed then w.(initial := None) else w.(sent := w.sent + [w.initial.value], initial := None);
      m.(windows := m.windows[serial := w'])
    else
      m
  }

  /** A window destroyed by something other than these handlers (the user,
      the window manager, a display going away). */
  function DestroyWindow(m: Main, serial: nat): (r: Main)
    requires Valid(m)
    ensures Valid(r) && r.overlays == m.overlays && r.next == m.next
    ensures LiveWindows(r) == LiveWindows(m) - {serial}
    ensures r.windows.Keys == m.windows.Keys
    ensures forall s | s in m.windows ::
      r.windows[s] == m.windows[s].(destroyed := m.windows[s].destroyed || s == serial)
  {
    if serial in m.windows then
      m.(windows := m.windows[serial := m.windows[serial].(destroyed := true)])
    else
      m
  }
}

=== FILE: panel.dfy ===
/** The control panel's state machine (`RingControlApp`): power with its
    re-entrancy guard, four sliders, drag handling, and the per-slider
    debounce that rate-limits the external control calls.

    Every asynchronous continuation of the panel (the 1 s toggle
    cool-down, the 500 ms debounce timers, the reply to `showRingOverlay`,
    the 500 ms refresh after it, the 100 ms re-show after a monitor change)
    is an explicit event. Each operation returns the new state and the
    effects it issues, in order. */
module Panel {
  import opened Wrappers
  import opened Color
  import opened Ring
  import Mappings

  datatype SliderId = BrightnessSlider | ThicknessSlider | SizeSlider | WarmthSlider

  /** The `systemControl` kind a slider is configured with. */
  datatype Control = BrightnessControl | ThicknessControl | RingSizeControl | ColorTempControl

  /** The external control calls `setBrightness`, `setRingSize` and
      `setColorTemp`, opaque to the panel. */
  datatype SinkKind = SetBrightness | SetRingSize | SetColorTemp

  function ControlOf(id: SliderId): Control {
    match id
    case BrightnessSlider => BrightnessControl
    case ThicknessSlider => ThicknessControl
    case SizeSlider => RingSizeControl
    case WarmthSlider => ColorTempControl
  }

  /** The external call behind a control kind; thickness has none (it
      re-sends the ring thickness instead). */
  function SinkFor(c: Control): Option<SinkKind> {
    match c
    case BrightnessControl => Some(SetBrightness)
    case ThicknessControl => None
    case RingSizeControl => Some(SetRingSize)
    case ColorTempControl => Some(SetColorTemp)
  }

  predicate IsVertical(id: SliderId) {
    id == BrightnessSlider || id == ThicknessSlider
  }

  function DefaultValue(id: SliderId): real {
    match id
    case BrightnessSlider => 100.0
    case ThicknessSlider => 50.0
    case SizeSlider => 25.0
    case WarmthSlider => 50.0
  }

  /** The key of the slider in `this.sliders`. */
  function SliderName(id: SliderId): string {
    match id
    case BrightnessSlider => "brightness"
    case ThicknessSlider => "thickness"
    case SizeSlider => "size"
    case WarmthSlider => "warmth"
  }

  /** The slider a name is an own key of `this.sliders` for: the four
      configured names. */
  function SliderIdOf(name: string): (r: Option<SliderId>)
    ensures r.Some? ==> SliderName(r.value) == name
    ensures r.None? ==> forall id: SliderId :: SliderName(id) != name
  {
    if name == "brightness" then Some(BrightnessSlider)
    else if name == "thickness" then Some(ThicknessSlider)
    else if name == "size" then Some(SizeSlider)
    else if name == "warmth" then Some(WarmthSlider)
    else None
  }

  /** The properties every plain object inherits from `Object.prototype`.
      `this.sliders` is a plain `{}`, so `this.sliders[name]` finds an
      object (truthy) for each of these names although no slider has it. */
  const InheritedNames: set<string> := {
    "__proto__", "constructor", "hasOwnProperty", "isPrototypeOf", "propertyIsEnumerable",
    "toLocaleString", "toString", "valueOf",
    "__defineGetter__", "__defineSetter__", "__lookupGetter__", "__lookupSetter__"}

  /** What `this.sliders[name]` finds: a slider, an inherited object, or
      `undefined`. */
  datatype Lookup = OwnSlider(id: SliderId) | InheritedObject | Undefined

  function LookUp(name: string): (r: Lookup)
    ensures r.OwnSlider? <==> SliderIdOf(name).Some?
    ensures r.OwnSlider? ==> r.id == SliderIdOf(name).value && SliderName(r.id) == name
    ensures r.InheritedObject? <==> name in InheritedNames
  {
    match SliderIdOf(name)
    case Some(id) => OwnSlider(id)
    case None => if name in InheritedNames then InheritedObject else Undefined
  }

  datatype Slider = Slider(current: real, dragging: bool, lastApplied: Option<real>)

  datatype Sliders = Sliders(brightness: Slider, thickness: Slider, size: Slider, warmth: Slider) {

    function Get(id: SliderId): Slider {
      match id
      case BrightnessSlider => brightness
      case ThicknessSlider => thickness
      case SizeSlider => size
      case WarmthSlider => warmth
    }

    function With(id: SliderId, s: Slider): (r: Sliders)
      ensures r.Get(id) == s
      ensures forall other: SliderId | other != id :: r.Get(other) == Get(other)
    {
      match id
      case BrightnessSlider => this.(brightness := s)
      case ThicknessSlider => this.(thickness := s)
      case SizeSlider => this.(size := s)
      case WarmthSlider => this.(warmth := s)
    }
  }

  datatype Panel = Panel(
    power: bool,                  // `powerState`
    toggling: bool,               // `isPowerToggling`
    initializing: bool,           // `isInitializing`
    electron: bool,               // `isElectron`: the overlay bridge is present
    sliders: Sliders,
    timers: map<SliderId, real>,  // `debounceTimers`: the value each pending timer will apply
    monitor: string,              // `selectedMonitor`
    ringVisible: bool,            // the in-page ring element has class `visible`
    refreshes: nat,               // pending 500 ms refreshes after a successful show
    reshows: nat,                 // pending 100 ms re-shows after a monitor change
    inherited: map<string, real>) // `currentValue` written onto the object an inherited name finds

  /** What the panel does to the outside world. */
  datatype Effect =
    | ShowOverlay(data: RingData)        // `electronAPI.showRingOverlay`
    | HideOverlay                        // `electronAPI.hideRingOverlay`
    | SendUpdate(u: Update)              // `electronAPI.updateRingProperties`
    | Sink(kind: SinkKind, value: int)   // external control call
    | SetBorderWidth(px: real)           // in-page ring styles
    | SetOpacity(opacity: real)
    | SetRingPixels(px: real)
    | SetBorderColor(color: Rgb)
    | TypeErrorThrown                    // an exception propagates to the caller

  /** The state after the constructor: power off, no guard, no timers,
      each slider at its default, and the saved monitor choice (or
      `'primary'` when none is saved). */
  function Init(electron: bool, savedMonitor: string): (p: Panel)
    ensures !p.power && !p.toggling && !p.initializing && p.timers == map[]
    ensures p.electron == electron && !p.ringVisible && p.refreshes == 0 && p.reshows == 0
    ensures p.inherited == map[]
    ensures forall id: SliderId :: p.sliders.Get(id) == Slider(DefaultValue(id), false, None)
    ensures savedMonitor != "" ==> p.monitor == savedMonitor
    ensures savedMonitor == "" ==> p.monitor == "primary"
  {
    var initial := (id: SliderId) => Slider(DefaultValue(id), false, None);
    Panel(false, false, false, electron,
      Sliders(initial(BrightnessSlider), initial(ThicknessSlider), initial(SizeSlider), initial(WarmthSlider)),
      map[], if savedMonitor != "" then savedMonitor else "primary", false, 0, 0, map[])
  }

  function WithSlider(p: Panel, id: SliderId, s: Slider): Panel {
    p.(sliders := p.sliders.With(id, s))
  }

  /** The overlay property carrying one slider's value. */
  function PropFor(id: SliderId, value: real): Update {
    match id
    case BrightnessSlider => BrightnessProp(value)
    case ThicknessSlider => ThicknessProp(value)
    case SizeSlider => SizeProp(value)
    case WarmthSlider => WarmthProp(value, ColorTemperature(value))
  }

  /** The in-page ring style carrying one slider's value. */
  function DomStyle(id: SliderId, value: real): Effect {
    match id
    case BrightnessSlider => SetOpacity(Mappings.Opacity(value))
    case ThicknessSlider => SetBorderWidth(Mappings.BorderWidth(value))
    case SizeSlider => SetRingPixels(Mappings.RingPixels(value))
    case WarmthSlider => SetBorderColor(ColorTemperature(value))
  }

  /** `updateRingThickness` and its three siblings: with power on, push the
      slider's current value to the overlay windows, or style the in-page
      ring outside Electron; with power off, nothing. */
  function RingUpdate(p: Panel, id: SliderId): (e: seq<Effect>)
    ensures !p.power ==> e == []
    ensures p.power && p.electron ==> e == [SendUpdate(PropFor(id, p.sliders.Get(id).current))]
    ensures p.power && !p.electron ==> e == [DomStyle(id, p.sliders.Get(id).current)]
  {
    if !p.power then []
    else if p.electron then [SendUpdate(PropFor(id, p.sliders.Get(id).current))]
    else [DomStyle(id, p.sliders.Get(id).current)]
  }

  /** All four ring updates, in the order the source issues them:
      thickness, brightness, size, warmth, each carrying the slider's
      current value. */
  function RefreshAll(p: Panel): (e: seq<Effect>)
    ensures !p.power ==> e == []
    ensures p.power && p.electron ==>
      e == [SendUpdate(ThicknessProp(p.sliders.thickness.current)),
            SendUpdate(BrightnessProp(p.sliders.brightness.current)),
            SendUpdate(SizeProp(p.sliders.size.current)),
            SendUpdate(WarmthProp(p.sliders.warmth.current, ColorTemperature(p.sliders.warmth.current)))]
    ensures p.power && !p.electron ==>
      e == [SetBorderWidth(Mappings.BorderWidth(p.sliders.thickness.current)),
            SetOpacity(Mappings.Opacity(p.sliders.brightness.current)),
            SetRingPixels(Mappings.RingPixels(p.sliders.size.current)),
            SetBorderColor(ColorTemperature(p.sliders.warmth.current))]
  {
    RingUpdate(p, ThicknessSlider) + RingUpdate(p, BrightnessSlider)
    + RingUpdate(p, SizeSlider) + RingUpdate(p, WarmthSlider)
  }

  /** The `ringData` payload of `showRing`. */
  function CurrentRingData(p: Panel): RingData {
    var warmth := p.sliders.warmth.current;
    RingData(p.monitor, p.sliders.thickness.current, p.sliders.brightness.current,
             p.sliders.size.current, warmth, ColorTemperature(warmth))
  }

  /** `showDomRing`: make the in-page ring visible and refresh it. */
  function ShowDomRing(p: Panel): (Panel, seq<Effect>) {
    (p.(ringVisible := true), RefreshAll(p))
  }

  /** `showRing`: ask for overlay windows, or fall back to the in-page ring
      outside Electron. */
  function ShowRing(p: Panel): (Panel, seq<Effect>) {
    if p.electron then (p, [ShowOverlay(CurrentRingData(p))]) else ShowDomRing(p)
  }

  /** `hideRing`. */
  function HideRing(p: Panel): (Panel, seq<Effect>) {
    if p.electron then (p, [HideOverlay]) else (p.(ringVisible := false), [])
  }

  /** `togglePower`: while the guard is set the request is dropped;
      otherwise power flips, the guard is set (only the cool-down event
      clears it), and the ring is shown or hidden. Pending debounce timers
      are left alone. */
  function TogglePower(p: Panel): (r: (Panel, seq<Effect>))
    ensures p.toggling ==> r == (p, [])
    ensures !p.toggling ==> r.0.toggling && r.0.power == !p.power
    ensures !p.toggling ==>
      r.0.sliders == p.sliders && r.0.timers == p.timers && r.0.monitor == p.monitor
    ensures !p.toggling ==>
      r.0 == p.(toggling := true, power := !p.power,
                ringVisible := if p.electron then p.ringVisible else !p.power)
    ensures !p.toggling && !p.power && p.electron ==> r.1 == [ShowOverlay(CurrentRingData(p))]
    ensures !p.toggling && p.power && p.electron ==> r.1 == [HideOverlay]
    ensures !p.toggling && !p.electron ==> r.0.ringVisible == !p.power
    ensures !p.toggling && !p.power && !p.electron ==> r.1 == RefreshAll(r.0) && r.0.power
    ensures !p.toggling && p.power && !p.electron ==> r.1 == []
  {
    if p.toggling then
      (p, [])
    else
      var q := p.(toggling := true, power := !p.power);
      if q.power then ShowRing(q) else HideRing(q)
  }

  /** The 1 s cool-down after a toggle has passed. */
  function CooldownExpired(p: Panel): (r: Panel)
    ensures !r.toggling && r.(toggling := p.toggling) == p
  {
    p.(toggling := false)
  }

  /** `updateSlider`: the slider takes the value as given; with power on the
      ring gets it at once, and outside initialisation that slider's
      debounce timer is (re-)armed with it. Nothing else changes. */
  function UpdateSlider(p: Panel, id: SliderId, value: real): (r: (Panel, seq<Effect>))
    ensures r.0.sliders.Get(id) == p.sliders.Get(id).(current := value)
    ensures forall other: SliderId | other != id :: r.0.sliders.Get(other) == p.sliders.Get(other)
    ensures p.power && !p.initializing ==> r.0.timers == p.timers[id := value]
    ensures !(p.power && !p.initializing) ==> r.0.timers == p.timers
    ensures r.0 == p.(sliders := r.0.sliders, timers := r.0.timers)
    ensures !p.power ==> r.1 == []
    ensures p.power && p.electron ==> r.1 == [SendUpdate(PropFor(id, value))]
    ensures p.power && !p.electron ==> r.1 == [DomStyle(id, value)]
  {
    var q := WithSlider(p, id, p.sliders.Get(id).(current := value));
    var effects := RingUpdate(q, id);
    if p.power && !p.initializing then
      (q.(timers := q.timers[id := value]), effects)  // `debounceSystemControl`
    else
      (q, effects)
  }

  /** The `switch (controlType)` of `applySystemControl`. */
  function Dispatch(p: Panel, id: SliderId, value: real): seq<Effect> {
    match SinkFor(ControlOf(id))
    case Some(kind) => [Sink(kind, Round(value))]
    case None => RingUpdate(p, ThicknessSlider)
  }

  /** `applySystemControl`: nothing outside Electron and nothing when the
      value equals the last one applied; otherwise the value is recorded as
      last applied and the slider's control is dispatched once: an
      external call with the rounded value, or (thickness) a re-send of the
      current thickness while power is on. */
  function ApplySystemControl(p: Panel, id: SliderId, value: real): (r: (Panel, seq<Effect>))
    ensures !p.electron || p.sliders.Get(id).lastApplied == Some(value) ==> r == (p, [])
    ensures p.electron && p.sliders.Get(id).lastApplied != Some(value) ==>
      r.0 == WithSlider(p, id, p.sliders.Get(id).(lastApplied := Some(value)))
    ensures p.electron && p.sliders.Get(id).lastApplied != Some(value) && SinkFor(ControlOf(id)).Some? ==>
      r.1 == [Sink(SinkFor(ControlOf(id)).value, Round(value))]
    ensures p.electron && p.sliders.Get(id).lastApplied != Some(value) && SinkFor(ControlOf(id)).None? ==>
      id == ThicknessSlider
      && r.1 == (if p.power then [SendUpdate(ThicknessProp(p.sliders.thickness.current))] else [])
  {
    var s := p.sliders.Get(id);
    if !p.electron || s.lastApplied == Some(value) then
      (p, [])
    else
      var q := WithSlider(p, id, s.(lastApplied := Some(value)));
      (q, Dispatch(q, id, value))
  }

  /** `startSliderDrag`: with power off nothing happens; otherwise the
      slider is marked as dragging. */
  function StartDrag(p: Panel, id: SliderId): (r: Panel)
    ensures !p.power ==> r == p
    ensures p.power ==> r == WithSlider(p, id, p.sliders.Get(id).(dragging := true))
  {
    if !p.power then p else WithSlider(p, id, p.sliders.Get(id).(dragging := true))
  }

  /** The pointer position (`clientX`, `clientY`). */
  datatype Point = Point(x: real, y: real)

  /** The slider track's `getBoundingClientRect()`. */
  datatype Track = Track(left: real, top: real, width: real, height: real)

  /** The pointer can be read against the track: the source divides only
      by the track's extent along the slider's own axis, which a rendered
      rectangle never has negative, and the quotient is a number unless
      that extent is zero with the pointer exactly on the edge. */
  predicate Readable(id: SliderId, at: Point, track: Track) {
    if IsVertical(id) then track.height >= 0.0 && (track.height > 0.0 || at.y != track.top)
    else track.width >= 0.0 && (track.width > 0.0 || at.x != track.left)
  }

  /** The slider value under the pointer: distance from the top edge on a
      vertical track, from the left edge on a horizontal one. */
  function ValueUnder(id: SliderId, at: Point, track: Track): (v: real)
    requires Readable(id, at, track)
    ensures 0.0 <= v <= 100.0
    ensures IsVertical(id) && at.y <= track.top ==> v == 100.0
    ensures IsVertical(id) && track.top + track.height <= at.y ==> v == 0.0
    ensures !IsVertical(id) && at.x <= track.left ==> v == 0.0
    ensures !IsVertical(id) && track.left + track.width <= at.x ==> v == 100.0
  {
    if IsVertical(id) then Mappings.SliderValueAt(true, at.y - track.top, track.height)
    else Mappings.SliderValueAt(false, at.x - track.left, track.width)
  }

  /** `updateSliderFromMouse`: ignored with power off or when the slider is
      not being dragged; otherwise the slider is updated to the (clamped)
      value under the pointer. */
  function PointerMoved(p: Panel, id: SliderId, at: Point, track: Track): (r: (Panel, seq<Effect>))
    requires Readable(id, at, track)
    ensures !p.power || !p.sliders.Get(id).dragging ==> r == (p, [])
    ensures p.power && p.sliders.Get(id).dragging ==>
      r == UpdateSlider(p, id, ValueUnder(id, at, track))
    ensures 0.0 <= r.0.sliders.Get(id).current <= 100.0 || r.0 == p
  {
    if !p.power || !p.sliders.Get(id).dragging then (p, [])
    else UpdateSlider(p, id, ValueUnder(id, at, track))
  }

  /** `stopSliderDrag`: ignored with power off; otherwise dragging ends and
      the current value is applied at once. The slider's pending debounce
      timer is not cancelled. */
  function StopDrag(p: Panel, id: SliderId): (r: (Panel, seq<Effect>))
    ensures !p.power ==> r == (p, [])
    ensures p.power ==> !r.0.sliders.Get(id).dragging && r.0.timers == p.timers
    ensures p.power ==>
      r == ApplySystemControl(WithSlider(p, id, p.sliders.Get(id).(dragging := false)), id, p.sliders.Get(id).current)
  {
    if !p.power then
      (p, [])
    else
      var q := WithSlider(p, id, p.sliders.Get(id).(dragging := false));
      ApplySystemControl(q, id, q.sliders.Get(id).current)
  }

  /** A debounce timer fires: its entry is removed in every case, and its
      value is applied only if power is still on (and initialisation is
      over). With no pending entry nothing happens. */
  function FireDebounce(p: Panel, id: SliderId): (r: (Panel, seq<Effect>))
    ensures id !in p.timers ==> r == (p, [])
    ensures id in p.timers ==> r.0.timers == p.timers - {id}
    ensures id in p.timers && !(p.power && !p.initializing) ==>
      r == (p.(timers := p.timers - {id}), [])
    ensures id in p.timers && p.power && !p.initializing ==>
      var applied := ApplySystemControl(p, id, p.timers[id]);
      r == (applied.0.(timers := p.timers - {id}), applied.1)
  {
    if id !in p.timers then
      (p, [])
    else
      var applied :=
        if p.power && !p.initializing then ApplySystemControl(p, id, p.timers[id]) else (p, []);
      (applied.0.(timers := applied.0.timers - {id}), applied.1)
  }

  /** The monitor `<select>` changes: the choice is kept, and with power on
      the ring is hidden and a re-show is scheduled. */
  function SelectMonitor(p: Panel, token: string): (r: (Panel, seq<Effect>))
    ensures r.0.monitor == token && r.0.power == p.power && r.0.sliders == p.sliders
    ensures !p.power ==> r == (p.(monitor := token), [])
    ensures p.power ==> r.0.reshows == p.reshows + 1
    ensures p.power && p.electron ==> r.1 == [HideOverlay]
    ensures p.power && !p.electron ==>
      r == (p.(monitor := token, ringVisible := false, reshows := p.reshows + 1), [])
  {
    var q := p.(monitor := token);
    if p.power then
      var hidden := HideRing(q);
      (hidden.0.(reshows := q.reshows + 1), hidden.1)
    else
      (q, [])
  }

  /** The scheduled re-show runs `showRing` without looking at power. */
  function ReshowDue(p: Panel): (r: (Panel, seq<Effect>))
    ensures p.reshows == 0 ==> r == (p, [])
    ensures p.reshows > 0 ==> r.0.reshows == p.reshows - 1 && r.0.power == p.power
    ensures p.reshows > 0 && p.electron ==>
      r == (p.(reshows := p.reshows - 1), [ShowOverlay(CurrentRingData(p))])
    ensures p.reshows > 0 && !p.electron ==>
      r == (p.(reshows := p.reshows - 1, ringVisible := true), RefreshAll(p))
  {
    if p.reshows == 0 then (p, []) else ShowRing(p.(reshows := p.reshows - 1))
  }

  /** The reply to `showRingOverlay`: success schedules the refresh of all
      four properties; failure (or a rejected promise) falls back to the
      in-page ring. */
  function ShowAnswered(p: Panel, ok: bool): (r: (Panel, seq<Effect>))
    ensures ok ==> r == (p.(refreshes := p.refreshes + 1), [])
    ensures !ok ==> r == (p.(ringVisible := true), RefreshAll(p))
  {
    if ok then (p.(refreshes := p.refreshes + 1), []) else ShowDomRing(p)
  }

  /** The refresh 500 ms after a successful show: all four ring updates,
      each sent only if power is (still) on. */
  function RefreshDue(p: Panel): (r: (Panel, seq<Effect>))
    ensures p.refreshes == 0 ==> r == (p, [])
    ensures p.refreshes > 0 ==> r.0 == p.(refreshes := p.refreshes - 1)
    ensures p.refreshes > 0 ==> r.1 == RefreshAll(p)
  {
    if p.refreshes == 0 then (p, []) else (p.(refreshes := p.refreshes - 1), RefreshAll(p))
  }

  /** `setSliderValue`: a name that finds nothing is ignored; a slider's
      name is `updateSlider`. An inherited name reaches `updateSlider` too,
      which writes `currentValue` onto the inherited object and then throws
      a TypeError at its first DOM access, as the object has no `thumb`. */
  function SetSliderValue(p: Panel, name: string, value: real): (r: (Panel, seq<Effect>))
    ensures LookUp(name).Undefined? ==> r == (p, [])
    ensures LookUp(name).OwnSlider? ==> r == UpdateSlider(p, LookUp(name).id, value)
    ensures LookUp(name).InheritedObject? ==>
      r.1 == [TypeErrorThrown] && r.0.inherited.Keys == p.inherited.Keys + {name}
      && r.0 == p.(inherited := r.0.inherited)
  {
    match LookUp(name)
    case Undefined => (p, [])
    case OwnSlider(id) => UpdateSlider(p, id, value)
    case InheritedObject => (p.(inherited := p.inherited[name := value]), [TypeErrorThrown])
  }

  /** `this.sliders[name].currentValue` for an inherited name: the value
      written onto that object, else one written onto `Object.prototype`
      itself through `__proto__`, which every inherited object sees along
      its prototype chain, else `undefined`. */
  function InheritedValue(p: Panel, name: string): (v: Option<real>)
    ensures v.None? <==> name !in p.inherited && "__proto__" !in p.inherited
  {
    if name in p.inherited then Some(p.inherited[name])
    else if "__proto__" in p.inherited then Some(p.inherited["__proto__"])
    else None
  }

  /** `getSliderValue`: the slider's current value; 0 for a name that finds
      nothing; for an inherited name whatever `currentValue` its object
      has, `undefined` (`None`) unless one was written. */
  function GetSliderValue(p: Panel, name: string): (v: Option<real>)
    ensures forall id: SliderId :: name == SliderName(id) ==> v == Some(p.sliders.Get(id).current)
    ensures LookUp(name).Undefined? ==> v == Some(0.0)
    ensures LookUp(name).InheritedObject? ==> v == InheritedValue(p, name)
  {
    match LookUp(name)
    case Undefined => Some(0.0)
    case OwnSlider(id) => Some(p.sliders.Get(id).current)
    case InheritedObject => InheritedValue(p, name)
  }

  /** `setPowerState`: toggles only when the requested state differs, and
      so is subject to the toggle guard. */
  function SetPowerState(p: Panel, on: bool): (r: (Panel, seq<Effect>))
    ensures on == p.power || p.toggling ==> r == (p, [])
    ensures on != p.power && !p.toggling ==> r.0.power == on && r.0.toggling
    ensures on != p.power ==> r == TogglePower(p)
    ensures on != p.power && !p.toggling ==>
      r.0.sliders == p.sliders && r.0.timers == p.timers && r.0.monitor == p.monitor
    ensures on != p.power && !p.toggling && p.electron ==>
      r.1 == (if on then [ShowOverlay(CurrentRingData(p))] else [HideOverlay])
    ensures on != p.power && !p.toggling && !p.electron ==>
      r.0.ringVisible == on && r.1 == (if on then RefreshAll(r.0) else [])
  {
    if on != p.power then TogglePower(p) else (p, [])
  }

  /** Everything that can happen to the panel. */
  datatype Event =
    | PowerClicked
    | CooldownElapsed
    | DragStarted(id: SliderId)
    | PointerMovedTo(id: SliderId, at: Point, track: Track)
    | PointerReleased(id: SliderId)
    | DebounceFired(id: SliderId)
    | MonitorChosen(token: string)
    | ShowReplied(ok: bool)
    | RefreshFired
    | ReshowFired
    | SliderValueSet(name: string, value: real)
    | PowerStateSet(on: bool)

  /** A pointer move is readable against its track. */
  predicate WellFormed(e: Event) {
    e.PointerMovedTo? ==> Readable(e.id, e.at, e.track)
  }

  function Step(p: Panel, e: Event): (Panel, seq<Effect>)
    requires WellFormed(e)
  {
    match e
    case PowerClicked => TogglePower(p)
    case CooldownElapsed => (CooldownExpired(p), [])
    case DragStarted(id) => (StartDrag(p, id), [])
    case PointerMovedTo(id, at, track) => PointerMoved(p, id, at, track)
    case PointerReleased(id) => StopDrag(p, id)
    case DebounceFired(id) => FireDebounce(p, id)
    case MonitorChosen(token) => SelectMonitor(p, token)
    case ShowReplied(ok) => ShowAnswered(p, ok)
    case RefreshFired => RefreshDue(p)
    case ReshowFired => ReshowDue(p)
    case SliderValueSet(name, value) => SetSliderValue(p, name, value)
    case PowerStateSet(on) => SetPowerState(p, on)
  }

  /** A run of events: the final state and every effect, in order. */
  function Run(p: Panel, events: seq<Event>): (Panel, seq<Effect>)
    requires forall i | 0 <= i < |events| :: WellFormed(events[i])
    decreases |events|
  {
    if |events| == 0 then
      (p, [])
    else
      var first := Step(p, events[0]);
      var rest := Run(first.0, events[1..]);
      (rest.0, first.1 + rest.1)
  }
}

=== FILE: panel_properties.dfy ===
/** Properties of the control panel over single events and short runs. */
module PanelProperties {
  import opened Wrappers
  import opened Color
  import opened Ring
  import opened Panel

  /** No external control call among the effects. */
  predicate NoSink(effects: seq<Effect>) {
    forall i | 0 <= i < |effects| :: !effects[i].Sink?
  }

  /** No property update sent to the overlay windows. */
  predicate NoSend(effects: seq<Effect>) {
    forall i | 0 <= i < |effects| :: !effects[i].SendUpdate?
  }

  /** The external control calls among the effects, in order. */
  function Sinks(effects: seq<Effect>): (r: seq<Effect>)
    ensures forall i | 0 <= i < |r| :: r[i].Sink? && r[i] in effects
    ensures NoSink(effects) ==> r == []
  {
    if |effects| == 0 then []
    else (if effects[0].Sink? then [effects[0]] else []) + Sinks(effects[1..])
  }

  lemma {:induction false} SinksAppend(a: seq<Effect>, b: seq<Effect>)
    ensures Sinks(a + b) == Sinks(a) + Sinks(b)
  {
    if |a| > 0 {
      assert (a + b)[1..] == a[1..] + b;
      SinksAppend(a[1..], b);
    } else {
      assert a + b == b;
    }
  }

  /** Slider names and slider identities correspond one to one. */
  lemma SliderNameRoundTrip(id: SliderId)
    ensures SliderIdOf(SliderName(id)) == Some(id)
  {
  }

  /** `getSliderValue` reads back what `setSliderValue` stored, for the
      sliders' names and for inherited names alike (the latter through the
      property written before the throw); a name that finds nothing is
      ignored by the setter and reads 0. */
  lemma SetThenGetSlider(p: Panel, name: string, value: real)
    ensures !LookUp(name).Undefined? ==>
      GetSliderValue(SetSliderValue(p, name, value).0, name) == Some(value)
    ensures LookUp(name).Undefined? ==>
      SetSliderValue(p, name, value) == (p, []) && GetSliderValue(p, name) == Some(0.0)
  {
  }

  /** An inherited name reads `undefined` until something is written, and a
      write through `__proto__` lands on `Object.prototype`, so every other
      inherited name not written itself then reads that value. No slider
      changes either way. */
  lemma ProtoWriteIsShared(p: Panel, name: string, value: real)
    requires name in InheritedNames && name !in p.inherited
    ensures "__proto__" !in p.inherited ==> GetSliderValue(p, name) == None
    ensures var q := SetSliderValue(p, "__proto__", value);
      && q.1 == [TypeErrorThrown] && q.0.sliders == p.sliders && q.0.timers == p.timers
      && GetSliderValue(q.0, name) == Some(value)
  {
  }

  /** The value is stored as given, whatever it is: nothing clamps a
      programmatic update, and the unclamped value is what the debounce
      timer will apply. */
  lemma SetSliderValueUnclamped(p: Panel, id: SliderId, value: real)
    ensures SetSliderValue(p, SliderName(id), value).0.sliders.Get(id).current == value
    ensures p.power && !p.initializing ==>
      SetSliderValue(p, SliderName(id), value).0.timers == p.timers[id := value]
  {
  }

  /** While the toggle guard is set, toggle requests are dropped, and no
      event but the end of the cool-down clears the guard. */
  lemma ToggleGuard(p: Panel, e: Event)
    requires p.toggling && WellFormed(e)
    ensures e.PowerClicked? || e.PowerStateSet? ==> Step(p, e) == (p, [])
    ensures !e.CooldownElapsed? ==> Step(p, e).0.toggling
    ensures e.CooldownElapsed? ==> !Step(p, e).0.toggling
  {
  }

  /** A double click inside the cool-down toggles once; after the cool-down
      the second click toggles back. */
  lemma DoubleClick(p: Panel)
    requires !p.toggling
    ensures Run(p, [PowerClicked, PowerClicked]) == Step(p, PowerClicked)
    ensures Run(p, [PowerClicked, CooldownElapsed, PowerClicked]).0.power == p.power
  {
    var first := Step(p, PowerClicked);
    assert [PowerClicked, PowerClicked][1..] == [PowerClicked];
    assert [PowerClicked][1..] == [];
    assert Step(first.0, PowerClicked) == (first.0, []);
    assert Run(first.0, [PowerClicked]) == (first.0, [] + []);
    assert first.1 + [] == first.1;
    var second := Step(first.0, CooldownElapsed);
    assert [PowerClicked, CooldownElapsed, PowerClicked][1..] == [CooldownElapsed, PowerClicked];
    assert [CooldownElapsed, PowerClicked][1..] == [PowerClicked];
    assert Run(second.0, [PowerClicked]).0 == Step(second.0, PowerClicked).0;
  }

  /** Events that can change the power state. */
  predicate PowerEvent(e: Event) {
    e.PowerClicked? || e.PowerStateSet?
  }

  /** With power off, no event calls the external controls or sends a
      property update; only a toggle turns power on. */
  lemma PowerOffIsQuiet(p: Panel, e: Event)
    requires !p.power && WellFormed(e)
    ensures NoSink(Step(p, e).1)
    ensures !PowerEvent(e) ==> NoSend(Step(p, e).1) && !Step(p, e).0.power
  {
    match e {
      case PowerClicked =>
      case PowerStateSet(on) =>
      case _ =>
    }
  }

  /** A run without toggles, started with power off, never calls the
      external controls. */
  lemma {:induction false} PowerOffRunIsQuiet(p: Panel, events: seq<Event>)
    requires !p.power
    requires forall i | 0 <= i < |events| :: WellFormed(events[i]) && !PowerEvent(events[i])
    ensures Sinks(Run(p, events).1) == []
    ensures !Run(p, events).0.power
    decreases |events|
  {
    if |events| > 0 {
      var first := Step(p, events[0]);
      PowerOffIsQuiet(p, events[0]);
      PowerOffRunIsQuiet(first.0, events[1..]);
      SinksAppend(first.1, Run(first.0, events[1..]).1);
    }
  }

  /** Slider values and pending timer values are in 0..100. */
  predicate InRange(p: Panel) {
    && (forall id: SliderId :: 0.0 <= p.sliders.Get(id).current <= 100.0)
    && (forall id | id in p.timers :: 0.0 <= p.timers[id] <= 100.0)
  }

  /** Every external control call carries a value in 0..100. */
  predicate SinksInRange(effects: seq<Effect>) {
    forall i | 0 <= i < |effects| && effects[i].Sink? :: 0 <= effects[i].value <= 100
  }

  lemma ApplyInRange(p: Panel, id: SliderId, value: real)
    requires 0.0 <= value <= 100.0
    ensures SinksInRange(ApplySystemControl(p, id, value).1)
    ensures ApplySystemControl(p, id, value).0.timers == p.timers
    ensures forall other: SliderId ::
      ApplySystemControl(p, id, value).0.sliders.Get(other).current == p.sliders.Get(other).current
  {
    RoundInRange(value, 0, 100);
  }

  lemma NoSinkAppend(a: seq<Effect>, b: seq<Effect>)
    requires NoSink(a) && NoSink(b)
    ensures NoSink(a + b)
  {
    forall i | 0 <= i < |a + b| ensures !(a + b)[i].Sink? {
      if i >= |a| {
        assert (a + b)[i] == b[i - |a|];
      }
    }
  }

  lemma RefreshAllNoSink(p: Panel)
    ensures NoSink(RefreshAll(p))
  {
    NoSinkAppend(RingUpdate(p, ThicknessSlider), RingUpdate(p, BrightnessSlider));
    NoSinkAppend(RingUpdate(p, ThicknessSlider) + RingUpdate(p, BrightnessSlider), RingUpdate(p, SizeSlider));
    NoSinkAppend(RingUpdate(p, ThicknessSlider) + RingUpdate(p, BrightnessSlider) + RingUpdate(p, SizeSlider),
                 RingUpdate(p, WarmthSlider));
  }

  /** Showing or hiding the ring never calls the external controls. */
  lemma ShowHideNoSink(p: Panel)
    ensures NoSink(ShowRing(p).1) && NoSink(HideRing(p).1) && NoSink(ShowDomRing(p).1)
    ensures NoSink(TogglePower(p).1)
  {
    RefreshAllNoSink(p);
    RefreshAllNoSink(p.(toggling := true, power := !p.power));
  }

  lemma UpdateSliderInRange(p: Panel, id: SliderId, value: real)
    requires InRange(p) && 0.0 <= value <= 100.0
    ensures InRange(UpdateSlider(p, id, value).0) && NoSink(UpdateSlider(p, id, value).1)
  {
  }

  /** Events that move a slider or apply its value. */
  predicate SliderEvent(e: Event) {
    e.DragStarted? || e.PointerMovedTo? || e.PointerReleased? || e.DebounceFired? || e.SliderValueSet?
  }

  lemma SliderStepKeepsRange(p: Panel, e: Event)
    requires InRange(p) && WellFormed(e) && SliderEvent(e)
    requires e.SliderValueSet? ==> 0.0 <= e.value <= 100.0
    ensures InRange(Step(p, e).0)
    ensures SinksInRange(Step(p, e).1)
  {
    match e {
      case DragStarted(id) =>
      case PointerMovedTo(id, at, track) =>
        if p.power && p.sliders.Get(id).dragging {
          UpdateSliderInRange(p, id, ValueUnder(id, at, track));
        }
      case PointerReleased(id) =>
        if p.power {
          var q := WithSlider(p, id, p.sliders.Get(id).(dragging := false));
          ApplyInRange(q, id, q.sliders.Get(id).current);
        }
      case DebounceFired(id) =>
        if id in p.timers && p.power && !p.initializing {
          ApplyInRange(p, id, p.timers[id]);
        }
      case SliderValueSet(name, value) =>
        if LookUp(name).OwnSlider? {
          UpdateSliderInRange(p, LookUp(name).id, value);
        }
    }
  }

  /** Toggles and the cool-down leave sliders and timers alone and never
      call the external controls. */
  lemma PowerStepKeepsRange(p: Panel, e: Event)
    requires InRange(p) && (PowerEvent(e) || e.CooldownElapsed?)
    ensures InRange(Step(p, e).0)
    ensures NoSink(Step(p, e).1)
  {
    ShowHideNoSink(p);
  }

  lemma SelectMonitorKeepsRange(p: Panel, token: string)
    requires InRange(p)
    ensures InRange(SelectMonitor(p, token).0) && NoSink(SelectMonitor(p, token).1)
  {
    ShowHideNoSink(p.(monitor := token));
  }

  lemma ShowAnsweredKeepsRange(p: Panel, ok: bool)
    requires InRange(p)
    ensures InRange(ShowAnswered(p, ok).0) && NoSink(ShowAnswered(p, ok).1)
  {
    ShowHideNoSink(p);
  }

  lemma RefreshDueKeepsRange(p: Panel)
    requires InRange(p)
    ensures InRange(RefreshDue(p).0) && NoSink(RefreshDue(p).1)
  {
    RefreshAllNoSink(p);
  }

  lemma ReshowDueKeepsRange(p: Panel)
    requires InRange(p)
    ensures InRange(ReshowDue(p).0) && NoSink(ReshowDue(p).1)
  {
    if p.reshows > 0 {
      ShowHideNoSink(p.(reshows := p.reshows - 1));
    }
  }

  /** Monitor changes and the show machinery leave sliders and timers alone
      and never call the external controls. */
  lemma ShowStepKeepsRange(p: Panel, e: Event)
    requires InRange(p) && (e.MonitorChosen? || e.ShowReplied? || e.RefreshFired? || e.ReshowFired?)
    ensures InRange(Step(p, e).0)
    ensures NoSink(Step(p, e).1)
  {
    match e {
      case MonitorChosen(token) => SelectMonitorKeepsRange(p, token);
      case ShowReplied(ok) => ShowAnsweredKeepsRange(p, ok);
      case RefreshFired => RefreshDueKeepsRange(p);
      case ReshowFired => ReshowDueKeepsRange(p);
    }
  }

  /** Pointer-driven and in-range programmatic updates keep every slider and
      every pending value in 0..100, and then every external control call
      carries a value in 0..100. */
  lemma StepKeepsRange(p: Panel, e: Event)
    requires InRange(p) && WellFormed(e)
    requires e.SliderValueSet? ==> 0.0 <= e.value <= 100.0
    ensures InRange(Step(p, e).0)
    ensures SinksInRange(Step(p, e).1)
  {
    if SliderEvent(e) {
      SliderStepKeepsRange(p, e);
    } else if PowerEvent(e) || e.CooldownElapsed? {
      PowerStepKeepsRange(p, e);
    } else {
      ShowStepKeepsRange(p, e);
    }
  }

  lemma SinksInRangeAppend(a: seq<Effect>, b: seq<Effect>)
    requires SinksInRange(a) && SinksInRange(b)
    ensures SinksInRange(a + b)
  {
    forall i | 0 <= i < |a + b| && (a + b)[i].Sink? ensures 0 <= (a + b)[i].value <= 100 {
      if i >= |a| {
        assert (a + b)[i] == b[i - |a|];
      }
    }
  }

  /** `StepKeepsRange` over a whole run. */
  lemma {:induction false} RunKeepsRange(p: Panel, events: seq<Event>)
    requires InRange(p)
    requires forall i | 0 <= i < |events| ::
      WellFormed(events[i]) && (events[i].SliderValueSet? ==> 0.0 <= events[i].value <= 100.0)
    ensures InRange(Run(p, events).0) && SinksInRange(Run(p, events).1)
    decreases |events|
  {
    if |events| > 0 {
      StepKeepsRange(p, events[0]);
      var first := Step(p, events[0]);
      assert forall i | 0 <= i < |events[1..]| :: events[1..][i] == events[i + 1];
      RunKeepsRange(first.0, events[1..]);
      SinksInRangeAppend(first.1, Run(first.0, events[1..]).1);
    }
  }

  /** The constructed panel meets the range invariant. So every run from
      it, with programmatic values in 0..100, keeps sliders and timers in
      0..100 and calls the external controls only in range; and a run that
      never touches power calls them not at all. */
  lemma InitKeepsRange(electron: bool, savedMonitor: string, events: seq<Event>)
    requires forall i | 0 <= i < |events| ::
      WellFormed(events[i]) && (events[i].SliderValueSet? ==> 0.0 <= events[i].value <= 100.0)
    ensures InRange(Init(electron, savedMonitor))
    ensures var r := Run(Init(electron, savedMonitor), events);
      InRange(r.0) && SinksInRange(r.1)
    ensures (forall i | 0 <= i < |events| :: !PowerEvent(events[i])) ==>
      Sinks(Run(Init(electron, savedMonitor), events).1) == []
  {
    var p := Init(electron, savedMonitor);
    RunKeepsRange(p, events);
    if forall i | 0 <= i < |events| :: !PowerEvent(events[i]) {
      PowerOffRunIsQuiet(p, events);
    }
  }

  /** The handlers behind `DebounceCoalesces`, called directly. */
  lemma DebounceHandlers(p: Panel, id: SliderId, a: real, b: real, c: real)
    requires p.power && p.electron && !p.initializing
    requires SinkFor(ControlOf(id)).Some? && p.sliders.Get(id).lastApplied != Some(c)
    ensures var s1 := UpdateSlider(p, id, a);
      var s2 := UpdateSlider(s1.0, id, b);
      var s3 := UpdateSlider(s2.0, id, c);
      var s4 := FireDebounce(s3.0, id);
      && s1.1 + (s2.1 + (s3.1 + (s4.1 + []))) ==
           [SendUpdate(PropFor(id, a)), SendUpdate(PropFor(id, b)), SendUpdate(PropFor(id, c)),
            Sink(SinkFor(ControlOf(id)).value, Round(c))]
      && id !in s4.0.timers
      && s4.0.sliders.Get(id).lastApplied == Some(c)
  {
    var s1 := UpdateSlider(p, id, a);
    var s2 := UpdateSlider(s1.0, id, b);
    var s3 := UpdateSlider(s2.0, id, c);
    assert s3.0.timers[id] == c;
    assert s3.0.sliders.Get(id).lastApplied == p.sliders.Get(id).lastApplied;
  }

  /** Three quick updates of one slider and then its timer: the ring gets
      every value at once, the external control is called exactly once,
      with the last value, and a second firing finds nothing pending. */
  lemma DebounceCoalesces(p: Panel, id: SliderId, a: real, b: real, c: real)
    requires p.power && p.electron && !p.initializing
    requires SinkFor(ControlOf(id)).Some? && p.sliders.Get(id).lastApplied != Some(c)
    ensures var name := SliderName(id);
      var r := Run(p, [SliderValueSet(name, a), SliderValueSet(name, b), SliderValueSet(name, c), DebounceFired(id)]);
      && r.1 == [SendUpdate(PropFor(id, a)), SendUpdate(PropFor(id, b)), SendUpdate(PropFor(id, c)),
                 Sink(SinkFor(ControlOf(id)).value, Round(c))]
      && id !in r.0.timers
      && r.0.sliders.Get(id).lastApplied == Some(c)
      && Step(r.0, DebounceFired(id)) == (r.0, [])
  {
    var name := SliderName(id);
    SliderNameRoundTrip(id);
    DebounceHandlers(p, id, a, b, c);
    var events := [SliderValueSet(name, a), SliderValueSet(name, b), SliderValueSet(name, c), DebounceFired(id)];
    var s1 := UpdateSlider(p, id, a);
    var s2 := UpdateSlider(s1.0, id, b);
    var s3 := UpdateSlider(s2.0, id, c);
    var s4 := FireDebounce(s3.0, id);
    assert events[1..][1..][1..][1..] == [];
    assert Run(s3.0, events[1..][1..][1..]) == (s4.0, s4.1 + []);
    assert Run(s2.0, events[1..][1..]) == (s4.0, s3.1 + (s4.1 + []));
    assert Run(s1.0, events[1..]) == (s4.0, s2.1 + (s3.1 + (s4.1 + [])));
  }

  /** The handlers behind `DragAppliesOnce`, called directly. */
  lemma DragHandlers(p: Panel, id: SliderId, at: Point, track: Track)
    requires p.power && p.electron && !p.initializing
    requires Readable(id, at, track)
    requires SinkFor(ControlOf(id)).Some?
    requires p.sliders.Get(id).lastApplied != Some(ValueUnder(id, at, track))
    ensures var v := ValueUnder(id, at, track);
      var s1 := StartDrag(p, id);
      var s2 := PointerMoved(s1, id, at, track);
      var s3 := StopDrag(s2.0, id);
      var s4 := FireDebounce(s3.0, id);
      && [] + (s2.1 + (s3.1 + (s4.1 + []))) == [SendUpdate(PropFor(id, v)), Sink(SinkFor(ControlOf(id)).value, Round(v))]
      && id !in s4.0.timers
      && !s4.0.sliders.Get(id).dragging
  {
    var v := ValueUnder(id, at, track);
    var s1 := StartDrag(p, id);
    var s2 := PointerMoved(s1, id, at, track);
    var s3 := StopDrag(s2.0, id);
    var s4 := FireDebounce(s3.0, id);
    assert s2.0.timers[id] == v;
    assert s3.0.timers == s2.0.timers;
    assert s3.0.sliders.Get(id).lastApplied == Some(v);
    assert s4 == (s3.0.(timers := s3.0.timers - {id}), []);
  }

  /** A whole drag: press, one move, release, then the timer armed by the
      move. The release applies the value at once, so the timer that fires
      afterwards finds it already applied: exactly one external call. */
  lemma DragAppliesOnce(p: Panel, id: SliderId, at: Point, track: Track)
    requires p.power && p.electron && !p.initializing
    requires Readable(id, at, track)
    requires SinkFor(ControlOf(id)).Some?
    requires p.sliders.Get(id).lastApplied != Some(ValueUnder(id, at, track))
    ensures var v := ValueUnder(id, at, track);
      var r := Run(p, [DragStarted(id), PointerMovedTo(id, at, track), PointerReleased(id), DebounceFired(id)]);
      && r.1 == [SendUpdate(PropFor(id, v)), Sink(SinkFor(ControlOf(id)).value, Round(v))]
      && id !in r.0.timers
      && !r.0.sliders.Get(id).dragging
  {
    DragHandlers(p, id, at, track);
    var events := [DragStarted(id), PointerMovedTo(id, at, track), PointerReleased(id), DebounceFired(id)];
    var s1 := StartDrag(p, id);
    var s2 := PointerMoved(s1, id, at, track);
    var s3 := StopDrag(s2.0, id);
    var s4 := FireDebounce(s3.0, id);
    assert events[1..][1..][1..][1..] == [];
    assert Run(s3.0, events[1..][1..][1..]) == (s4.0, s4.1 + []);
    assert Run(s2.0, events[1..][1..]) == (s4.0, s3.1 + (s4.1 + []));
    assert Run(s1, events[1..]) == (s4.0, s2.1 + (s3.1 + (s4.1 + [])));
  }

  /** A press on a thumb also reaches its track, the thumb's parent, so
      `startSliderDrag` runs twice and registers two `mousemove` and two
      `mouseup` listeners. Each listener is one handler call: one physical
      move calls `updateSliderFromMouse` twice and one release calls
      `stopSliderDrag` twice. The ring gets every update twice, and
      deduplication still makes one external call, the timer included. */
  lemma ThumbPressDoublesUpdates(p: Panel, id: SliderId, at: Point, track: Track)
    requires p.power && p.electron && !p.initializing
    requires Readable(id, at, track)
    requires SinkFor(ControlOf(id)).Some?
    requires p.sliders.Get(id).lastApplied != Some(ValueUnder(id, at, track))
    ensures var v := ValueUnder(id, at, track);
      var s1 := StartDrag(StartDrag(p, id), id);
      var s2 := PointerMoved(s1, id, at, track);
      var s3 := PointerMoved(s2.0, id, at, track);
      var s4 := StopDrag(s3.0, id);
      var s5 := StopDrag(s4.0, id);
      var s6 := FireDebounce(s5.0, id);
      && s2.1 + s3.1 + s4.1 + s5.1 + s6.1 ==
           [SendUpdate(PropFor(id, v)), SendUpdate(PropFor(id, v)), Sink(SinkFor(ControlOf(id)).value, Round(v))]
      && id !in s6.0.timers
      && s6.0.sliders.Get(id).current == v
  {
    var v := ValueUnder(id, at, track);
    var s1 := StartDrag(StartDrag(p, id), id);
    var s2 := PointerMoved(s1, id, at, track);
    var s3 := PointerMoved(s2.0, id, at, track);
    var s4 := StopDrag(s3.0, id);
    var s5 := StopDrag(s4.0, id);
    var s6 := FireDebounce(s5.0, id);
    assert s3.0.timers[id] == v;
    assert s4.0.sliders.Get(id).lastApplied == Some(v);
    assert s5 == (s4.0, []);
    assert s6 == (s5.0.(timers := s5.0.timers - {id}), []);
  }

  /** Turning power off leaves a pending timer armed; when it fires it only
      disarms itself. */
  lemma PowerOffThenTimer(p: Panel, id: SliderId)
    requires p.power && p.electron && !p.toggling && id in p.timers
    ensures var r := Run(p, [PowerClicked, DebounceFired(id)]);
      && r.1 == [HideOverlay]
      && id !in r.0.timers
      && r.0.sliders == p.sliders
  {
    var events := [PowerClicked, DebounceFired(id)];
    var s1 := TogglePower(p);
    assert id in s1.0.timers;
    var s2 := FireDebounce(s1.0, id);
    assert events[1..][1..] == [];
    assert Run(s1.0, events[1..]) == (s2.0, s2.1 + []);
  }

  /** Choosing a monitor with power on and then turning power off before
      the 100 ms re-show: the re-show still asks for overlay windows, with
      power off. */
  lemma ReshowIgnoresPower(p: Panel, token: string)
    requires p.power && p.electron && !p.toggling && p.reshows == 0
    ensures var r := Run(p, [MonitorChosen(token), PowerClicked, ReshowFired]);
      var q := p.(monitor := token, power := false, toggling := true);
      && !r.0.power
      && r.1 == [HideOverlay, HideOverlay, ShowOverlay(CurrentRingData(q))]
  {
    var events := [MonitorChosen(token), PowerClicked, ReshowFired];
    var s1 := SelectMonitor(p, token);
    var s2 := TogglePower(s1.0);
    var s3 := ReshowDue(s2.0);
    assert events[1..][1..][1..] == [];
    assert Run(s2.0, events[1..][1..]) == (s3.0, s3.1 + []);
    assert Run(s1.0, events[1..]) == (s3.0, s2.1 + (s3.1 + []));
  }
}

=== FILE: ring.dfy ===
/** The ring parameters as they cross from the panel to the main process. */
module Ring {
  import opened Color

  /** The payload of `showRingOverlay`: the monitor selection token and the
      four slider values, with the colour already derived from warmth. */
  datatype RingData = RingData(
    monitor: string,
    thickness: real,
    brightness: real,
    size: real,
    warmth: real,
    color: Rgb)

  /** The payload of one `update-ring` message to an overlay window: the
      full set sent once after the window is ready, or one changed slider. */
  datatype Update =
    | AllProps(thickness: real, brightness: real, warmth: real, color: Rgb, size: real)
    | ThicknessProp(thickness: real)
    | BrightnessProp(brightness: real)
    | SizeProp(size: real)
    | WarmthProp(warmth: real, color: Rgb)
}

=== FILE: wrappers.dfy ===
/** A value that may be absent: JavaScript's `undefined` (an array slot past
    the end, a property no object on the chain has), `NaN` from `parseInt`,
    a slider name the panel does not own. */
module Wrappers {

  datatype Option<+T> = None | Some(value: T)
}
